=== FILE: README.md ===
# Social betting app: a Dafny model of its handler logic

The app is a React front end on Supabase. Friends form *parties*. Each member has a balance in each party. The host posts *props* (bets) with two options and American odds, and members place *wagers* on them. There is no backend code: the logic lives in component handlers. This project models those handlers as pure functions and state transitions over an abstract store, and proves their properties.

The store (`Schema.Db`) is a record of maps: profiles, parties, memberships (a balance per `(user, party)` key), bets and wagers. Every Supabase call becomes a read or write on that record. A call that can fail becomes a boolean or set-valued fault parameter, so each error path is modelled and stated. The signed-in user is `Auth = Option<UserId>`.

Modules and the components they follow:

| module | file | component |
|---|---|---|
| `Wrappers` | wrappers.dfy | `Option` / `Result` |
| `Text` | text.dfy | string helpers: decimal text, `includes`, `split`/`pop`, `toLowerCase`, UTF-16 `length` |
| `IntParsing` | parse_int.dfy | JavaScript `parseInt` (no radix) |
| `Odds` | odds.dfy | `calculateWinnings` of `ResolveBetModal.jsx` |
| `Schema` | schema.dfy | the tables |
| `Settlement` | settlement.dfy | `handleResolve` of `ResolveBetModal.jsx` |
| `Leaderboard` | leaderboard.dfy | `Leaderboard.jsx` |
| `Navbar` | navbar.dfy | `Navbar.jsx` |
| `RouteGuard` | route_guard.dfy | `ProtectedRoute.jsx` |
| `SignUpForm` | signup.dfy | `SignUp.jsx` |
| `ProfileForm` | create_profile.dfy | `CreateProfile.jsx` |
| `PartyMembership` | membership.dfy | `LeavePartyModal.jsx`, `DeletePartyModal.jsx` |

Three behaviours of the code differ from what its screens suggest. The model keeps them as written:

- **Re-resolving a bet is not refused.** The code has no "already resolved" check and no check that the winning choice is one of the two options. A second resolution overwrites the bet's winning choice and timestamp. It finds no active wagers, so it credits nobody (`Settlement.SecondResolvePaysNothing`).
- **A name held twice passes the username check.** The lookup asks for exactly one row. With several rows it fails with the same code as with none, which the handler ignores, so the name counts as free (`ProfileForm.SharedNamePassesLookup`). Submissions through this form never create such a pair (`ProfileForm.SubmitKeepsUsernamesUnique`), so the taken-name guarantee is stated for stores with unique usernames (`ProfileForm.RegisteredNameTaken`).
- **Only later members of a tie are flagged.** The first member of an equal-balance run is untied with a plain rank: balances 100, 100, 80 display as "1", "T-1", "3" (`Leaderboard.RankExamples`).

## Model

| member | source | states |
|---|---|---|
| `IntParsing.ParseSignedText` | frontend/src/components/ResolveBetModal.jsx:20 | `parseInt` reads back any integer written in decimal, with or without a leading `+`, followed by anything that cannot continue the number |
| `IntParsing.ParseInt` | frontend/src/components/ResolveBetModal.jsx:20 | a number is read only when a digit follows the leading white space and the optional sign; it is never positive after a `-` and never negative otherwise |
| `IntParsing.NoDigitsIsNaN` | frontend/src/components/ResolveBetModal.jsx:20 | without a digit after the leading white space and the optional sign, `parseInt` gives NaN |
| `IntParsing.SignWithoutDigitsIsNaN` | frontend/src/components/ResolveBetModal.jsx:20 | a sign followed by nothing or by a non-digit ("-", "+abc") gives NaN |
| `Odds.DecimalOdds` | frontend/src/components/ResolveBetModal.jsx:22-28 | every nonzero American odds value returns more than the stake per unit staked |
| `Odds.Winnings` | frontend/src/components/ResolveBetModal.jsx:22-28 | positive odds: the profit times 100 equals stake times odds. Negative odds: the profit times \|odds\| equals stake times 100. A non-negative stake is never lost |
| `Odds.StakeForWinnings` | frontend/src/components/ResolveBetModal.jsx:19-29 | paying out and recovering the stake are inverse operations |
| `Odds.CalculateWinnings` | frontend/src/components/ResolveBetModal.jsx:19-29 | the parsed odds text gives a total of stake times decimal odds, never below a non-negative stake |
| `Odds.PayoutExamples` | frontend/src/components/ResolveBetModal.jsx:22-27 | 100 at "+120" returns 220; 100 at "-150" returns 500/3; 50 at "-150" returns 250/3 |
| `Settlement.Resolve` | frontend/src/components/ResolveBetModal.jsx:31-149 | each error case with its message, in `handleResolve`'s order (a failed host lookup reports the wrong-host message); success iff every check passes; the bet stamped; exactly the listed active wagers whose update succeeds get win/loss; each party balance rises by the user's credited winnings; the report counts and sums the paid winners |
| `Settlement.SettleAll` | frontend/src/components/ResolveBetModal.jsx:87-149 | the settling loop touches no profile, party or bet row and adds or removes no wager or membership |
| `Settlement.SettleAllStatuses` | frontend/src/components/ResolveBetModal.jsx:91-107 | the loop sets the status of each fetched wager whose update succeeds, and of no other wager |
| `Settlement.SettleAllBalances` | frontend/src/components/ResolveBetModal.jsx:110-145 | the loop adds to each party balance exactly the winnings credited to that user, and leaves other parties' balances alone |
| `Settlement.SettleAllReport` | frontend/src/components/ResolveBetModal.jsx:87-113 | the loop's winner count and total are the number and sum of winnings of the paid wagers |
| `Settlement.NoWinsNoCredit` | frontend/src/components/ResolveBetModal.jsx:110-148 | a user with no paid winning wager is credited nothing |
| `Settlement.CreditsNotNegative` | frontend/src/components/ResolveBetModal.jsx:110-133 | with no negative stakes, each user's credit is between 0 and the reported total |
| `Settlement.LoserBalanceUnchanged` | frontend/src/components/ResolveBetModal.jsx:146-148 | a member whose active wagers all lost keeps the balance |
| `Settlement.ResolveNeverDebits` | frontend/src/components/ResolveBetModal.jsx:126-133 | resolution never lowers a balance when no stake is negative |
| `Settlement.ResolveSettlesEveryWager` | frontend/src/components/ResolveBetModal.jsx:62-99 | when every status update succeeds, no active wager of the bet remains |
| `Settlement.ReResolveCreditsNobody` | frontend/src/components/ResolveBetModal.jsx:62-85 | resolving with no active wager left changes no balance or wager and reports nothing |
| `Settlement.SecondResolvePaysNothing` | frontend/src/components/ResolveBetModal.jsx:31-149 | a second resolution after a complete first one succeeds but pays nothing more |
| `Settlement.ResolvePreservesWellFormed` | frontend/src/components/ResolveBetModal.jsx:74-133 | resolution keeps memberships, bets and wagers attached to existing rows |
| `Settlement.ResolveScenario` | frontend/src/components/ResolveBetModal.jsx:87-160 | worked example: A (50 at -150 on the winner) ends at 133.33..., B (30 at +120 on the loser) stays at 70, one winner with 83.33... |
| `Leaderboard.Insert` | frontend/src/components/Leaderboard.jsx:11 | insertion adds exactly the new entry and loses none of the others |
| `Leaderboard.InsertSorted` | frontend/src/components/Leaderboard.jsx:11 | inserting into a list sorted highest balance first keeps it sorted |
| `Leaderboard.InsertWithBalance` | frontend/src/components/Leaderboard.jsx:11 | insertion puts the new entry ahead of the equal-balance entries and keeps their order |
| `Leaderboard.SortByBalance` | frontend/src/components/Leaderboard.jsx:11 | the sort is a permutation, highest balance first, and stable: entries of equal balance keep their input order |
| `Leaderboard.RankSorted` | frontend/src/components/Leaderboard.jsx:13-46 | each entry keeps its row and gets rank 1 + the position of the first equal balance; it is tied iff it is not that first entry; the displayed text is "T-" + rank when tied |
| `Leaderboard.ProcessLeaderboard` | frontend/src/components/Leaderboard.jsx:7-47 | a missing list gives an empty one; otherwise a sorted, stable permutation of the input with competition ranks |
| `Leaderboard.UntiedRankIsPosition` | frontend/src/components/Leaderboard.jsx:19-36 | an untied entry's rank is its 1-based position; the first entry is rank 1 and untied |
| `Leaderboard.TiedIffSameAsPrevious` | frontend/src/components/Leaderboard.jsx:20-28 | an entry is tied iff the entry before it has the same balance |
| `Leaderboard.RanksNonDecreasing` | frontend/src/components/Leaderboard.jsx:19-24 | ranks never decrease along the list and equal balances share a rank |
| `Leaderboard.RankExamples` | frontend/src/components/Leaderboard.jsx:19-43 | balances 100, 100, 80 rank "1", "T-1", "3"; balances 100, 90, 80 rank 1, 2, 3 with no tie |
| `Leaderboard.SplitTop3` | frontend/src/components/Leaderboard.jsx:49-50 | the two parts concatenate to the list and the first has min(3, n) entries |
| `Leaderboard.CurrentUserPosition` | frontend/src/components/Leaderboard.jsx:53-55 | the first position holding the user, or -1 exactly when the user is absent |
| `Leaderboard.ShowsYourPosition` | frontend/src/components/Leaderboard.jsx:145 | when the block is shown the user is on the list at a position of at least 3; when it is not, the user is absent or among the first three |
| `Leaderboard.YourPositionIffBelowTop3` | frontend/src/components/Leaderboard.jsx:146 | "Your Position" is shown iff the user is on the list and not among the top three |
| `Leaderboard.RankIcon` | frontend/src/components/Leaderboard.jsx:57-68 | a medal exactly for the texts "1", "2" and "3" |
| `Leaderboard.RankColor` | frontend/src/components/Leaderboard.jsx:70-81 | a podium colour exactly for the texts that get a medal ("1", "2" and "3") |
| `Leaderboard.MedalIffUntiedPodium` | frontend/src/components/Leaderboard.jsx:57-68 | an entry gets a medal iff it is untied with rank at most 3, so a tied "T-1" gets none |
| `Navbar.PartyIdRoundTrip` | frontend/src/components/Navbar.jsx:24-26 | a party path yields its id iff the id is non-empty and has no line terminator; any path that yields an id is that id's party path |
| `Navbar.PartyIdFromPath` | frontend/src/components/Navbar.jsx:24-26 | an id is read only from that id's party path, and from a party path exactly when the id is non-empty and has no line terminator |
| `Navbar.IsPartyDetailsPath` | frontend/src/components/Navbar.jsx:98 | the details layout is chosen only for a party path, and for a party path exactly when the id is non-empty and has no slash |
| `Navbar.ListPathsNameNoParty` | frontend/src/components/Navbar.jsx:24-25 | "/parties" and "/parties/" name no party and do not get the details layout |
| `Navbar.DetailsPathNamesParty` | frontend/src/components/Navbar.jsx:98 | on a details path with no line terminator the party id is the single segment |
| `Navbar.PatternsDisagree` | frontend/src/components/Navbar.jsx:24 | "/parties/a/b" names party "a/b" without the details layout; a segment holding a line feed gets the layout but names no party |
| `Navbar.DisplayName` | frontend/src/components/Navbar.jsx:216 | the name shown is never empty: the full name when present, else the username when present, else "User" (also for a profile with neither name) |
| `Navbar.ShowsUsernameLine` | frontend/src/components/Navbar.jsx:216-222 | the "@username" line is shown exactly when the profile has both a username and a full name, and then the name above it is the full name |
| `Navbar.UsernameShownOnce` | frontend/src/components/Navbar.jsx:216-221 | with the "@username" line the name above it is the full name; the username alone is shown as the name; no profile, or a profile with neither name, reads "User" without the line; both names present show the line |
| `Navbar.RefreshBalance` | frontend/src/components/Navbar.jsx:24-37 | the balance becomes the membership's balance in the party the path names, when that row is found; otherwise it stays |
| `Navbar.OnLocationChange` | frontend/src/components/Navbar.jsx:45-75 | signed out resets to no user, no profile, balance 0; signed in sets the user, keeps the old profile unless the lookup finds one, and refreshes the balance as the balance lookup does |
| `Navbar.PartyPageShowsMemberBalance` | frontend/src/components/Navbar.jsx:24-35 | on a member's party page the bar shows that membership's balance |
| `Navbar.BalanceKeptWithoutRow` | frontend/src/components/Navbar.jsx:34-37 | without a membership row (or off party pages) the previous balance stays on display |
| `Navbar.SignedOutResets` | frontend/src/components/Navbar.jsx:67-71 | signing out resets the bar from any state, and the menu then reads "User" |
| `Schema.ProfileOf` | frontend/src/components/Navbar.jsx:55-63 | the profile lookup finds the row iff it exists and the query does not fail |
| `RouteGuard.Decide` | frontend/src/components/ProtectedRoute.jsx:85-106 | spinner iff loading; login iff no user; profile form iff a required profile is missing; the page otherwise |
| `RouteGuard.CheckAuth` | frontend/src/components/ProtectedRoute.jsx:11-50 | loading ends; an auth error or exception means no user; the profile is looked up only when required |
| `RouteGuard.OnAuthStateChange` | frontend/src/components/ProtectedRoute.jsx:57-80 | the session's user replaces the user; the profile is looked up only when required; sign-out clears both |
| `RouteGuard.CheckedRoute` | frontend/src/components/ProtectedRoute.jsx:18-46 | after the check: the page iff signed in with a profile (or none required); login iff not signed in; profile form iff signed in with a required profile missing |
| `RouteGuard.NoLookupWithoutRequirement` | frontend/src/components/ProtectedRoute.jsx:26 | without the requirement the outcome does not depend on the profile store, and a signed-in user gets the page |
| `RouteGuard.FailedLookupSendsToProfileForm` | frontend/src/components/ProtectedRoute.jsx:27-37 | a failed profile lookup sends the user to the profile form even when the row exists |
| `RouteGuard.AuthEventsRoute` | frontend/src/components/ProtectedRoute.jsx:57-80 | a sign-out event leads to login; a sign-in with a profile on file renders the page |
| `SignUpForm.HandleSignUp` | frontend/src/components/SignUp.jsx:13-55 | sign-up is called iff the passwords match and have at least 6 UTF-16 units; the mismatch is reported first; each outcome shows its own message (created, the store's rejection text, or the unexpected-error text); the redirect happens iff the account was created |
| `SignUpForm.SuccessStyleIffCreated` | frontend/src/components/SignUp.jsx:103-110 | the success colours appear iff the account was created, unless the backend's own error text says "successfully" |
| `SignUpForm.CreatedMessageStyled` | frontend/src/components/SignUp.jsx:42-44 | the success message contains "successfully" |
| `SignUpForm.TooShortNotStyled` | frontend/src/components/SignUp.jsx:27 | the length error is shown in the error colours |
| `SignUpForm.SignUpExamples` | frontend/src/components/SignUp.jsx:19-30 | a mismatch wins over the length; 5 units are too short and 6 pass; an emoji counts as two units |
| `Text.Utf16Length` | frontend/src/components/SignUp.jsx:26 | the length counts each character once or twice |
| `ProfileForm.ChangeAvatar` | frontend/src/components/CreateProfile.jsx:15-38 | no file changes nothing; an acceptable image is kept and the error cleared; otherwise the earlier choice stays and an error is set |
| `ProfileForm.AvatarCheckExamples` | frontend/src/components/CreateProfile.jsx:19-28 | the type is checked before the size; exactly 5 MiB is accepted |
| `ProfileForm.AvatarErrorNamesCheck` | frontend/src/components/CreateProfile.jsx:17-36 | the error is empty iff the file is accepted, and names the first failed check |
| `ProfileForm.AvatarExtension` | frontend/src/components/CreateProfile.jsx:44-45 | the path is the user id, "/avatar.", then the name's text after its last dot (the whole name when it has no dot) |
| `ProfileForm.AvatarPath` | frontend/src/components/CreateProfile.jsx:44-45 | the path starts with the user id and "/avatar.", its extension holds no dot, and a name without a dot is the extension |
| `ProfileForm.AvatarPathOwner` | frontend/src/components/CreateProfile.jsx:45-51 | users whose ids have no slash never share an avatar path |
| `ProfileForm.UploadAvatar` | frontend/src/components/CreateProfile.jsx:40-65 | no file gives no URL and no upload; a failed upload gives "Failed to upload avatar"; otherwise the file is stored at its path, the bucket gains exactly that path, and every other object is kept |
| `ProfileForm.SubmitProfile` | frontend/src/components/CreateProfile.jsx:67-123 | each error case with its message, in order (not signed in, lookup error, name found, upload failed, insert rejected); success iff every check passes; the bucket is the upload's result once the name is accepted; on success only the user's profile is added, with the lower-cased username; a failure changes no table |
| `ProfileForm.SharedNamePassesLookup` | frontend/src/components/CreateProfile.jsx:84-96 | a name two profiles already hold is not found by the single-row lookup, so it passes as free |
| `ProfileForm.SubmitKeepsUsernamesUnique` | frontend/src/components/CreateProfile.jsx:83-111 | submission keeps usernames unique and the store well formed |
| `ProfileForm.RegisteredNameTaken` | frontend/src/components/CreateProfile.jsx:84-96 | in a store with unique usernames, once a name is registered the same name in any letter case is taken for the next user |
| `ProfileForm.RejectedInsertKeepsUpload` | frontend/src/components/CreateProfile.jsx:98-113 | a rejected insert after a successful upload leaves the avatar in the bucket |
| `Text.LowerIdempotent` | frontend/src/components/CreateProfile.jsx:87 | lower-casing twice is lower-casing once |
| `Text.JoinSplit` | frontend/src/components/CreateProfile.jsx:44 | joining the split pieces with the separator restores the name |
| `Text.LastPieceIsTail` | frontend/src/components/CreateProfile.jsx:44 | the last piece is the text after the last separator, or the whole string |
| `Schema.HostOf` | frontend/src/components/LeavePartyModal.jsx:29-37 | the host lookup succeeds iff the party exists and the query does not fail |
| `PartyMembership.LeaveParty` | frontend/src/components/LeavePartyModal.jsx:14-54 | the error cases in order, each with its message, a failed delete included; success iff signed in, the party found, not its host, and the delete succeeds; then exactly the (user, party) membership is gone |
| `PartyMembership.DeleteParty` | frontend/src/components/DeletePartyModal.jsx:20-57 | the error cases in order, each with its message, a failed delete included; success iff the host asks and the delete succeeds; then the party, its memberships, its bets and their wagers are gone and every other row keeps its key and its value |
| `PartyMembership.CascadeDelete` | frontend/src/components/DeletePartyModal.jsx:49-53 | the delete with its cascades removes the party, exactly its memberships, exactly its bets and exactly the wagers on those bets; every remaining row keeps its value and profiles are untouched |
| `PartyMembership.LeaveOrDelete` | frontend/src/components/LeavePartyModal.jsx:39-43 | for a found party exactly one of leave and delete passes the host check |
| `PartyMembership.LeaveTouchesOneMembership` | frontend/src/components/LeavePartyModal.jsx:45-54 | leaving keeps the user's other memberships and balances; leaving a party one is not in changes nothing |
| `PartyMembership.LeaveAndDeleteKeepWellFormed` | frontend/src/components/DeletePartyModal.jsx:49-57 | leaving and deleting keep the store well formed |
| `PartyMembership.DeleteLeavesNoTrace` | frontend/src/components/DeletePartyModal.jsx:49-53 | after deletion nothing refers to the party and other parties' rows remain |
| `Text.NatToStringInjective` | frontend/src/components/Leaderboard.jsx:33 | distinct ranks have distinct rank texts |
| `Text.DecimalValueOfNatToString` | frontend/src/components/Leaderboard.jsx:33 | the decimal text of a number reads back as that number |

## Left out

- Rendering, hooks, markup, timers and navigation are left out. A redirect is a boolean of the outcome, and the two-second delay before it is dropped.
- Notification and log texts, including the "Bet resolved! … winner(s) …" summary, are left out. `Settlement.Report` carries the count and total it shows.
- Backend error texts are dropped. The handlers append the backend's text after the fixed prefix (e.g. "Failed to fetch party: …"). The model reports only the prefix.
- Money is modelled as exact reals. JavaScript floating point, its rounding and `toFixed(2)` formatting are not modelled. Neither is `parseInt` precision beyond 2^53.
- Concurrency is left out. The read-then-write balance credit in the resolve loop races with concurrent requests; each credit is modelled as one atomic map update.
- The Supabase client is abstracted. Queries are map reads and writes, failures are fault parameters, and the storage URL builder `getPublicUrl` is a function parameter. The order in which the store returns a bet's active wagers is a parameter.
- `Navbar` assumes `fetchUserBalance`'s own second sign-in check returns the same user as the first.
- `handleLogout` and the balance-refresh callback handed to the parent are not part of this model.
- The image preview read through `FileReader` is left out.
- Wager placement, party creation and joining, and the static components (PartyDetails.jsx, PlaceBetModal.jsx and the others) are not part of this model.
- Odds.CalculateWinnings: requires odds text that parses to a nonzero integer. For text with no number `calculateWinnings` computes NaN, and for "0" it divides by zero; neither value is represented.
- Settlement.Resolve: requires every paid winning wager to have such usable odds, for the same reason. The requirement applies only to a resolution that passes every check; the error branches hold for any odds text.
- Settlement.Resolve: requires its wager-order parameter to list exactly the bet's active wagers, once each, as the store's query returns them.
- ProfileForm.SubmitProfile: models the store's rejection of the insert by a flag plus the user already having a profile. Any database constraint on usernames is unknown and left out. So is the race between the uniqueness lookup and the insert.
- Text.Lower: lower-cases ASCII letters only. JavaScript's `toLowerCase` also maps non-ASCII letters.
- Navbar.PartyIdFromPath: the pattern's `.` is modelled as excluding the four JavaScript line terminators. Browser paths are percent-encoded, so those characters occur only in hand-made paths.

=== FILE: create_profile.dfy ===
/** The profile form: choosing an avatar image, uploading it to the `profile-images`
    bucket and creating the `profiles` row with a unique, lower-cased username. */
module ProfileForm {
  import opened Wrappers
  import opened Text
  import opened Schema

  /** A picked file: its name, MIME type and size in bytes. */
  datatype AvatarFile = AvatarFile(name: string, mimeType: string, size: nat)

  /** The avatar part of the form: the accepted file and the error line. */
  datatype AvatarForm = AvatarForm(file: Option<AvatarFile>, error: string)

  /** The storage bucket: objects by path. */
  type Bucket = map<string, AvatarFile>

  const MaxAvatarBytes: nat := 5 * 1024 * 1024
  const NotAnImage := "Please select an image file"
  const ImageTooLarge := "Image must be less than 5MB"
  const UploadFailed := "Failed to upload avatar"
  const UsernameTaken := "Username is already taken"

  /** An image of at most 5 MiB. */
  predicate AcceptableAvatar(file: AvatarFile) {
    StartsWith(file.mimeType, "image/") && file.size <= MaxAvatarBytes
  }

  /** `handleAvatarChange`: with no file nothing changes; a file whose type does not
      start with "image/" or that exceeds 5 MiB sets an error and leaves the earlier
      choice in place; otherwise the file is kept and the error cleared. */
  function ChangeAvatar(form: AvatarForm, picked: Option<AvatarFile>): (r: AvatarForm)
    ensures picked.None? ==> r == form
    ensures picked.Some? && AcceptableAvatar(picked.value) ==> r.file == picked && r.error == ""
    ensures picked.Some? && !AcceptableAvatar(picked.value) ==> r.file == form.file && r.error != ""
  {
    match picked
    case None => form
    case Some(file) =>
      if !StartsWith(file.mimeType, "image/") then AvatarForm(form.file, NotAnImage)
      else if file.size > MaxAvatarBytes then AvatarForm(form.file, ImageTooLarge)
      else AvatarForm(picked, "")
  }

  /** The checks are made in order: the type first, then the size; exactly 5 MiB passes. */
  lemma AvatarCheckExamples(form: AvatarForm)
    ensures ChangeAvatar(form, Some(AvatarFile("notes.txt", "text/plain", MaxAvatarBytes + 1))).error == NotAnImage
    ensures ChangeAvatar(form, Some(AvatarFile("me.png", "image/png", MaxAvatarBytes + 1))).error == ImageTooLarge
    ensures ChangeAvatar(form, Some(AvatarFile("me.png", "image/png", MaxAvatarBytes))) ==
      AvatarForm(Some(AvatarFile("me.png", "image/png", MaxAvatarBytes)), "")
  {
    assert !StartsWith("text/plain", "image/") by {
      assert "text/plain"[..6][0] != "image/"[0];
    }
    assert StartsWith("image/png", "image/") by {
      assert "image/png"[..6] == "image/";
    }
  }

  /** The error line names the first check the file fails, and is empty exactly when
      the file is accepted. */
  lemma AvatarErrorNamesCheck(form: AvatarForm, file: AvatarFile)
    ensures var r := ChangeAvatar(form, Some(file));
      && (r.error == "" <==> AcceptableAvatar(file))
      && (r.error == NotAnImage <==> !StartsWith(file.mimeType, "image/"))
      && (r.error == ImageTooLarge <==> StartsWith(file.mimeType, "image/") && file.size > MaxAvatarBytes)
  {
  }

  /** The object path: the user's folder, then "avatar." and the text after the last
      dot of the file name (the whole name when it has no dot). */
  function AvatarPath(userId: UserId, fileName: string): (p: string)
    ensures |p| >= |userId| + 8 && p[..|userId| + 8] == userId + "/avatar."
    ensures '.' !in p[|userId| + 8..]
    ensures '.' !in fileName ==> p[|userId| + 8..] == fileName
  {
    LastPieceIsTail(fileName, '.');
    userId + "/avatar." + LastPiece(fileName, '.')
  }

  /** The extension carries no dot and is the name's tail after its last dot. */
  lemma AvatarExtension(userId: UserId, fileName: string)
    ensures var ext := AvatarPath(userId, fileName)[|userId| + 8..];
      && AvatarPath(userId, fileName) == userId + "/avatar." + ext
      && '.' !in ext
      && ('.' !in fileName ==> ext == fileName)
      && ('.' in fileName ==> |ext| < |fileName| && fileName[|fileName| - |ext| - 1..] == "." + ext)
  {
    LastPieceIsTail(fileName, '.');
    var ext := LastPiece(fileName, '.');
    assert AvatarPath(userId, fileName)[|userId| + 8..] == ext;
    if '.' in fileName {
      assert fileName[|fileName| - |ext| - 1..] == [fileName[|fileName| - |ext| - 1]] + fileName[|fileName| - |ext|..];
    }
  }

  /** The first slash of an avatar path ends the user id. */
  lemma FirstSlash(userId: UserId, fileName: string)
    requires '/' !in userId
    ensures var p := AvatarPath(userId, fileName);
      |userId| < |p| && p[|userId|] == '/' && p[..|userId|] == userId
      && forall j :: 0 <= j < |userId| ==> p[j] != '/'
  {
    var p := AvatarPath(userId, fileName);
    assert p == userId + ("/avatar." + LastPiece(fileName, '.'));
    forall j | 0 <= j < |userId| ensures p[j] != '/' {
      assert p[j] == userId[j];
    }
  }

  /** Users whose ids hold no slash never share an avatar path, so the overwriting
      upload only ever replaces the user's own picture. */
  lemma AvatarPathOwner(u1: UserId, n1: string, u2: UserId, n2: string)
    requires '/' !in u1 && '/' !in u2
    requires AvatarPath(u1, n1) == AvatarPath(u2, n2)
    ensures u1 == u2
  {
    FirstSlash(u1, n1);
    FirstSlash(u2, n2);
  }

  /** `uploadAvatar`: nothing to do without a file; otherwise the file is written to its
      path (replacing any object there) and the public URL of that path is returned,
      unless the upload fails. `publicUrl` stands for the storage client's URL builder. */
  function UploadAvatar(bucket: Bucket, userId: UserId, file: Option<AvatarFile>, uploadFails: bool,
                        publicUrl: string -> string): (r: Result<(Option<string>, Bucket)>)
    ensures file.None? ==> r == Ok((None, bucket))
    ensures file.Some? && uploadFails ==> r == Err(UploadFailed)
    ensures file.Some? && !uploadFails ==>
      var path := AvatarPath(userId, file.value.name);
      r.Ok? && r.value.0 == Some(publicUrl(path)) && path in r.value.1 && r.value.1[path] == file.value
      && r.value.1.Keys == bucket.Keys + {path}
      && forall q :: q in bucket && q != path ==> q in r.value.1 && r.value.1[q] == bucket[q]
  {
    match file
    case None => Ok((None, bucket))
    case Some(f) =>
      if uploadFails then Err(UploadFailed)
      else
        var path := AvatarPath(userId, f.name);
        Ok((Some(publicUrl(path)), bucket[path := f]))
  }

  predicate HoldsName(db: Db, id: UserId, username: string) {
    id in db.profiles && db.profiles[id].username == Some(username)
  }

  /** The lookup `.eq("username", name).single()` finds a row: exactly one profile has
      this username. With no row or several rows `single()` fails with the "not exactly
      one row" code, which the handler ignores, so the name passes as free. */
  predicate UsernameInUse(db: Db, username: string) {
    exists id | id in db.profiles ::
      HoldsName(db, id, username) && forall other | other in db.profiles :: HoldsName(db, other, username) ==> other == id
  }

  /** No two profiles share a username. */
  predicate UniqueUsernames(db: Db) {
    forall a, b :: a in db.profiles && b in db.profiles && a != b && db.profiles[a].username.Some? ==>
      db.profiles[a].username != db.profiles[b].username
  }

  /** The text fields of the form. */
  datatype ProfileFields = ProfileFields(username: string, fullName: string, bio: string)

  /** What a submission leaves: the error shown (`None` when the page moves on to the
      party list), the store and the bucket. */
  datatype SubmitOutcome = SubmitOutcome(error: Option<string>, db: Db, bucket: Bucket)

  /** The checks before the upload pass: signed in, the lookup reports no error of its
      own, and the lower-cased username is not found. */
  predicate NameAccepted(db: Db, auth: Auth, fields: ProfileFields, lookupError: Option<string>) {
    auth.Some? && lookupError.None? && !UsernameInUse(db, Lower(fields.username))
  }

  /** `handleSubmit`: the user must be signed in; the lower-cased username is looked up
      (a lookup error other than "not exactly one row" is reported as is) and must not be
      found; the avatar,
      if any, is uploaded; then the profile row is inserted, which the store rejects
      (with `rejection`) when it fails or the user already has a profile. An uploaded
      avatar stays in the bucket even when the insert is rejected. */
  function SubmitProfile(db: Db, bucket: Bucket, auth: Auth, fields: ProfileFields, avatar: Option<AvatarFile>,
                         lookupError: Option<string>, uploadFails: bool, publicUrl: string -> string,
                         insertFails: bool, rejection: string): (r: SubmitOutcome)
    ensures auth.None? ==> r == SubmitOutcome(Some(NotAuthenticated), db, bucket)
    ensures auth.Some? && lookupError.Some? ==> r == SubmitOutcome(lookupError, db, bucket)
    ensures auth.Some? && lookupError.None? && UsernameInUse(db, Lower(fields.username)) ==>
      r == SubmitOutcome(Some(UsernameTaken), db, bucket)
    ensures NameAccepted(db, auth, fields, lookupError) && avatar.Some? && uploadFails ==>
      r == SubmitOutcome(Some(UploadFailed), db, bucket)
    ensures NameAccepted(db, auth, fields, lookupError) && !(avatar.Some? && uploadFails) ==>
      r.bucket == UploadAvatar(bucket, auth.value, avatar, uploadFails, publicUrl).value.1
    ensures NameAccepted(db, auth, fields, lookupError) && !(avatar.Some? && uploadFails) && (insertFails || auth.value in db.profiles) ==>
      r.error == Some(rejection)
    ensures r.error.None? <==>
      NameAccepted(db, auth, fields, lookupError) && !(avatar.Some? && uploadFails) && !insertFails && auth.value !in db.profiles
    ensures r.error.None? ==>
      && r.db == db.(profiles := r.db.profiles)
      && r.db.profiles.Keys == db.profiles.Keys + {auth.value}
      && (forall id :: id in db.profiles ==> r.db.profiles[id] == db.profiles[id])
      && r.db.profiles[auth.value] == Profile(auth.value, Some(Lower(fields.username)), Some(fields.fullName), Some(fields.bio),
                                              if avatar.Some? then Some(publicUrl(AvatarPath(auth.value, avatar.value.name))) else None)
    ensures r.error.Some? ==> r.db == db
  {
    match auth
    case None => SubmitOutcome(Some(NotAuthenticated), db, bucket)
    case Some(userId) =>
      var username := Lower(fields.username);
      if lookupError.Some? then SubmitOutcome(lookupError, db, bucket)
      else if UsernameInUse(db, username) then SubmitOutcome(Some(UsernameTaken), db, bucket)
      else match UploadAvatar(bucket, userId, avatar, uploadFails, publicUrl)
        case Err(message) => SubmitOutcome(Some(message), db, bucket)
        case Ok((avatarUrl, bucket')) =>
          if insertFails || userId in db.profiles then SubmitOutcome(Some(rejection), db, bucket')
          else
            var row := Profile(userId, Some(username), Some(fields.fullName), Some(fields.bio), avatarUrl);
            SubmitOutcome(None, db.(profiles := db.profiles[userId := row]), bucket')
  }

  /** A successful submission keeps usernames unique and the store well formed. */
  lemma SubmitKeepsUsernamesUnique(db: Db, bucket: Bucket, auth: Auth, fields: ProfileFields, avatar: Option<AvatarFile>,
                                   lookupError: Option<string>, uploadFails: bool, publicUrl: string -> string,
                                   insertFails: bool, rejection: string)
    requires UniqueUsernames(db) && WellFormed(db)
    ensures var r := SubmitProfile(db, bucket, auth, fields, avatar, lookupError, uploadFails, publicUrl, insertFails, rejection);
      UniqueUsernames(r.db) && WellFormed(r.db)
  {
    var r := SubmitProfile(db, bucket, auth, fields, avatar, lookupError, uploadFails, publicUrl, insertFails, rejection);
    if r.error.None? {
      var u := auth.value;
      var name := Lower(fields.username);
      forall a, b | a in r.db.profiles && b in r.db.profiles && a != b && r.db.profiles[a].username.Some?
        ensures r.db.profiles[a].username != r.db.profiles[b].username
      {
        if a == u {
          assert b in db.profiles && r.db.profiles[b] == db.profiles[b];
        } else if b == u {
          assert a in db.profiles && r.db.profiles[a] == db.profiles[a];
        }
      }
    }
  }

  /** With unique usernames, any holder of a name is the only one, so the lookup finds it. */
  lemma HolderMakesInUse(db: Db, username: string, id: UserId)
    requires UniqueUsernames(db) && id in db.profiles
    ensures HoldsName(db, id, username) ==> UsernameInUse(db, username)
  {
    if HoldsName(db, id, username) {
      forall other | other in db.profiles && HoldsName(db, other, username)
        ensures other == id
      {
      }
    }
  }

  /** A name two profiles already share passes the lookup as free: `single()` fails
      with the code the handler ignores. */
  lemma SharedNamePassesLookup(db: Db, username: string, a: UserId, b: UserId)
    requires a != b && HoldsName(db, a, username) && HoldsName(db, b, username)
    ensures !UsernameInUse(db, username)
  {
    forall id | id in db.profiles && HoldsName(db, id, username)
      ensures exists other | other in db.profiles :: HoldsName(db, other, username) && other != id
    {
      if id == a {
        assert HoldsName(db, b, username) && b != id;
      } else {
        assert HoldsName(db, a, username) && a != id;
      }
    }
  }

  /** Once a username is registered in a store with unique usernames, the same name in
      any letter case is reported as taken for everyone else. */
  lemma RegisteredNameTaken(db: Db, bucket: Bucket, userId: UserId, fields: ProfileFields, avatar: Option<AvatarFile>,
                            uploadFails: bool, publicUrl: string -> string, rejection: string,
                            other: UserId, otherFields: ProfileFields, otherAvatar: Option<AvatarFile>,
                            otherUploadFails: bool, otherInsertFails: bool)
    requires UniqueUsernames(db)
    requires SubmitProfile(db, bucket, Some(userId), fields, avatar, None, uploadFails, publicUrl, false, rejection).error.None?
    requires Lower(otherFields.username) == Lower(fields.username)
    ensures var r := SubmitProfile(db, bucket, Some(userId), fields, avatar, None, uploadFails, publicUrl, false, rejection);
      SubmitProfile(r.db, r.bucket, Some(other), otherFields, otherAvatar, None, otherUploadFails, publicUrl, otherInsertFails, rejection).error
        == Some(UsernameTaken)
  {
    var r := SubmitProfile(db, bucket, Some(userId), fields, avatar, None, uploadFails, publicUrl, false, rejection);
    var name := Lower(fields.username);
    forall id | id in db.profiles ensures !HoldsName(db, id, name) {
      HolderMakesInUse(db, name, id);
    }
    assert HoldsName(r.db, userId, name);
    forall id | id in r.db.profiles && HoldsName(r.db, id, name) ensures id == userId {
    }
    assert UsernameInUse(r.db, name);
  }

  /** A rejected insert after a successful upload leaves the uploaded avatar behind. */
  lemma RejectedInsertKeepsUpload(db: Db, bucket: Bucket, userId: UserId, fields: ProfileFields, file: AvatarFile,
                                  publicUrl: string -> string, rejection: string)
    requires !UsernameInUse(db, Lower(fields.username))
    ensures var r := SubmitProfile(db, bucket, Some(userId), fields, Some(file), None, false, publicUrl, true, rejection);
      r.error == Some(rejection) && r.db == db && AvatarPath(userId, file.name) in r.bucket
  {
  }
}

=== FILE: leaderboard.dfy ===
/** The leaderboard panel: members sorted by balance (highest first, ties kept in input
    order), standard competition ranks ("1, 1, 3"), a tie flag on every member after the
    first of an equal-balance run, the displayed rank text ("T-1" when tied), the
    top-three/rest split, the current user's position and the medal for ranks 1 to 3. */
module Leaderboard {
  import opened Wrappers
  import opened Text
  import opened Schema

  /** An input entry: the member's profile and balance. */
  datatype Row = Row(profile: Profile, balance: real)

  /** An output entry: the input entry unchanged, plus its rank fields. */
  datatype Ranked = Ranked(row: Row, displayRank: string, actualRank: nat, isTied: bool)

  predicate SortedDesc(s: seq<Row>) {
    forall i, j :: 0 <= i < j < |s| ==> s[i].balance >= s[j].balance
  }

  /** The entries with balance `b`, in their order in `s`. */
  function WithBalance(s: seq<Row>, b: real): seq<Row> {
    if |s| == 0 then []
    else (if s[0].balance == b then [s[0]] else []) + WithBalance(s[1..], b)
  }

  /** Places `x` ahead of the first entry whose balance does not exceed its own. */
  function Insert(x: Row, s: seq<Row>): (r: seq<Row>)
    ensures multiset(r) == multiset(s) + multiset{x}
  {
    if |s| == 0 || x.balance >= s[0].balance then
      [x] + s
    else
      assert s == [s[0]] + s[1..];
      [s[0]] + Insert(x, s[1..])
  }

  /** Inserting an entry no larger than `b` among entries no larger than `b` yields
      entries no larger than `b`. */
  lemma {:induction false} InsertBounded(x: Row, s: seq<Row>, b: real)
    requires x.balance <= b
    requires forall i :: 0 <= i < |s| ==> s[i].balance <= b
    ensures forall i :: 0 <= i < |Insert(x, s)| ==> Insert(x, s)[i].balance <= b
    decreases |s|
  {
    if |s| == 0 || x.balance >= s[0].balance {
    } else {
      InsertBounded(x, s[1..], b);
    }
  }

  /** Inserting into a list sorted highest balance first keeps it sorted. */
  lemma {:induction false} InsertSorted(x: Row, s: seq<Row>)
    requires SortedDesc(s)
    ensures SortedDesc(Insert(x, s))
    decreases |s|
  {
    if |s| == 0 || x.balance >= s[0].balance {
    } else {
      var r' := Insert(x, s[1..]);
      InsertSorted(x, s[1..]);
      InsertBounded(x, s[1..], s[0].balance);
      assert Insert(x, s) == [s[0]] + r';
    }
  }

  /** Inserting keeps the entries of every balance in order, the new one first. */
  lemma {:induction false} InsertWithBalance(x: Row, s: seq<Row>, b: real)
    ensures WithBalance(Insert(x, s), b) == (if x.balance == b then [x] else []) + WithBalance(s, b)
    decreases |s|
  {
    if |s| == 0 || x.balance >= s[0].balance {
      assert ([x] + s)[1..] == s;
    } else {
      var r' := Insert(x, s[1..]);
      InsertWithBalance(x, s[1..], b);
      assert ([s[0]] + r')[1..] == r';
    }
  }

  /** `[...data].sort((a, b) => b.balance - a.balance)`: a stable sort, highest balance
      first, on a copy of the input. */
  function SortByBalance(s: seq<Row>): (r: seq<Row>)
    ensures SortedDesc(r)
    ensures multiset(r) == multiset(s) && |r| == |s|
    ensures forall b :: WithBalance(r, b) == WithBalance(s, b)
  {
    if |s| == 0 then []
    else
      assert s == [s[0]] + s[1..];
      var r' := SortByBalance(s[1..]);
      InsertSorted(s[0], r');
      forall b ensures WithBalance(Insert(s[0], r'), b) == WithBalance(s, b) {
        InsertWithBalance(s[0], r', b);
      }
      Insert(s[0], r')
  }

  /** The index of the first entry with balance `b` (`|s|` if there is none). */
  function FirstWithBalance(s: seq<Row>, b: real): (k: nat)
    ensures k <= |s|
    ensures forall j :: 0 <= j < k ==> s[j].balance != b
    ensures k < |s| ==> s[k].balance == b
  {
    if |s| == 0 then 0 else if s[0].balance == b then 0 else 1 + FirstWithBalance(s[1..], b)
  }

  /** The rank as displayed: `"T-" + rank` for a tied entry, the plain number otherwise. */
  function RankText(rank: nat, tied: bool): string {
    if tied then "T-" + NatToString(rank) else NatToString(rank)
  }

  function RowsOf(out: seq<Ranked>): (rows: seq<Row>)
    ensures |rows| == |out| && forall i :: 0 <= i < |out| ==> rows[i] == out[i].row
  {
    seq(|out|, i requires 0 <= i < |out| => out[i].row)
  }

  /** Entry `e` carries the competition rank of position `i` in `rows`: one more than the
      position of the first entry with the same balance; tied exactly when that first
      entry is an earlier one. */
  predicate RankedAt(e: Ranked, rows: seq<Row>, i: int)
    requires 0 <= i < |rows|
  {
    var first := FirstWithBalance(rows, rows[i].balance);
    && e.row == rows[i]
    && e.actualRank == first + 1
    && (e.isTied <==> first < i)
    && e.displayRank == RankText(e.actualRank, e.isTied)
  }

  predicate CompetitionRanked(out: seq<Ranked>) {
    forall i :: 0 <= i < |out| ==> RankedAt(out[i], RowsOf(out), i)
  }

  /** Each entry whose balance differs from the one before it is the first entry with
      that balance: the equal-balance runs are contiguous. */
  predicate RunsContiguous(s: seq<Row>) {
    forall i :: 0 <= i < |s| && (i == 0 || s[i - 1].balance != s[i].balance) ==> FirstWithBalance(s, s[i].balance) == i
  }

  /** A sorted list has contiguous runs. */
  lemma SortedRunsContiguous(sorted: seq<Row>)
    requires SortedDesc(sorted)
    ensures RunsContiguous(sorted)
  {
  }

  /** Where the run of entry `i` starts, seen from the entry before it. */
  lemma FirstOfNext(s: seq<Row>, i: int)
    requires RunsContiguous(s) && 0 <= i < |s|
    ensures i == 0 ==> FirstWithBalance(s, s[i].balance) == 0
    ensures i > 0 && s[i - 1].balance != s[i].balance ==> FirstWithBalance(s, s[i].balance) == i
    ensures i > 0 && s[i - 1].balance == s[i].balance ==>
      FirstWithBalance(s, s[i].balance) == FirstWithBalance(s, s[i - 1].balance)
  {
  }

  /** The entry the loop builds at position `index`, from the start of its run and the
      number of entries of the run before it. */
  lemma EntryRanked(sorted: seq<Row>, index: int, first: nat, tieCount: nat, entry: Ranked)
    requires 0 <= index < |sorted|
    requires first == FirstWithBalance(sorted, sorted[index].balance) && first + tieCount == index
    requires entry.row == sorted[index] && entry.actualRank == first + 1 && entry.isTied == (tieCount > 0)
    requires entry.displayRank == if tieCount == 0 then NatToString(first + 1) else "T-" + NatToString(first + 1)
    ensures RankedAt(entry, sorted, index)
  {
  }

  /** Appending the entry ranked at the next position extends a position-by-position
      ranking. */
  lemma RankedAppend(ranked: seq<Ranked>, entry: Ranked, sorted: seq<Row>)
    requires |ranked| < |sorted|
    requires forall k :: 0 <= k < |ranked| ==> RankedAt(ranked[k], sorted, k)
    requires RankedAt(entry, sorted, |ranked|)
    ensures forall k :: 0 <= k < |ranked| + 1 ==> RankedAt((ranked + [entry])[k], sorted, k)
  {
    forall k | 0 <= k < |ranked| + 1
      ensures RankedAt((ranked + [entry])[k], sorted, k)
    {
      if k < |ranked| {
        assert (ranked + [entry])[k] == ranked[k];
      }
    }
  }

  /** The ranking loop over the sorted entries. It keeps the rank and balance of the
      current equal-balance run and how many entries followed its first one. */
  method RankSorted(sorted: seq<Row>) returns (ranked: seq<Ranked>)
    requires RunsContiguous(sorted)
    ensures RowsOf(ranked) == sorted
    ensures CompetitionRanked(ranked)
  {
    ranked := [];
    var currentRank: nat := 1;
    var currentBalance: Option<real> := None;
    var tieCount: nat := 0;
    ghost var first: nat := 0;
    var index := 0;
    while index < |sorted|
      invariant 0 <= index <= |sorted|
      invariant |ranked| == index
      invariant forall k :: 0 <= k < index ==> RankedAt(ranked[k], sorted, k)
      invariant index == 0 ==> currentBalance == None
      invariant index > 0 ==> currentBalance == Some(sorted[index - 1].balance)
      invariant index > 0 ==> first == FirstWithBalance(sorted, sorted[index - 1].balance)
      invariant currentRank == first + 1 && (index > 0 ==> first + tieCount == index - 1)
    {
      var member := sorted[index];
      FirstOfNext(sorted, index);
      if currentBalance != Some(member.balance) {
        currentRank := index + 1;
        currentBalance := Some(member.balance);
        tieCount := 0;
        first := index;
      } else {
        tieCount := tieCount + 1;
      }
      var displayRank := if tieCount == 0 then NatToString(currentRank) else "T-" + NatToString(currentRank);
      var entry := Ranked(member, displayRank, currentRank, tieCount > 0);
      EntryRanked(sorted, index, first, tieCount, entry);
      RankedAppend(ranked, entry, sorted);
      ranked := ranked + [entry];
      index := index + 1;
    }
    RankedEverywhere(ranked, sorted);
  }

  /** Entries ranked position by position against `sorted` form a competition ranking
      of `sorted`. */
  lemma RankedEverywhere(ranked: seq<Ranked>, sorted: seq<Row>)
    requires |ranked| == |sorted|
    requires forall k :: 0 <= k < |ranked| ==> RankedAt(ranked[k], sorted, k)
    ensures RowsOf(ranked) == sorted
    ensures CompetitionRanked(ranked)
  {
    assert RowsOf(ranked) == sorted;
  }

  /** `processedLeaderboard`: a missing or empty input gives an empty list; otherwise
      the input sorted (a permutation, highest balance first, equal balances in input
      order) with competition ranks. */
  method ProcessLeaderboard(data: Option<seq<Row>>) returns (out: seq<Ranked>)
    ensures data.None? ==> out == []
    ensures var input := data.GetOr([]);
      && |out| == |input|
      && multiset(RowsOf(out)) == multiset(input)
      && SortedDesc(RowsOf(out))
      && (forall b :: WithBalance(RowsOf(out), b) == WithBalance(input, b))
      && CompetitionRanked(out)
  {
    if data.None? || |data.value| == 0 {
      return [];
    }
    var sorted := SortByBalance(data.value);
    SortedRunsContiguous(sorted);
    out := RankSorted(sorted);
  }

  /** An untied entry's rank is its 1-based position; the first entry is rank 1 and
      never tied. */
  lemma UntiedRankIsPosition(out: seq<Ranked>, i: int)
    requires CompetitionRanked(out) && 0 <= i < |out|
    ensures !out[i].isTied ==> out[i].actualRank == i + 1
    ensures i == 0 ==> out[i].actualRank == 1 && !out[i].isTied
  {
    assert RankedAt(out[i], RowsOf(out), i);
  }

  /** On a sorted list, an entry is tied exactly when the entry before it has the same
      balance. */
  lemma TiedIffSameAsPrevious(out: seq<Ranked>, i: int)
    requires CompetitionRanked(out) && SortedDesc(RowsOf(out)) && 0 <= i < |out|
    ensures out[i].isTied <==> i > 0 && out[i - 1].row.balance == out[i].row.balance
  {
    var rows := RowsOf(out);
    assert RankedAt(out[i], rows, i);
    var first := FirstWithBalance(rows, rows[i].balance);
    if first < i {
      assert rows[first].balance >= rows[i - 1].balance >= rows[i].balance;
    }
  }

  /** On a sorted list ranks never decrease, and equal balances share a rank. */
  lemma RanksNonDecreasing(out: seq<Ranked>, i: int, j: int)
    requires CompetitionRanked(out) && SortedDesc(RowsOf(out)) && 0 <= i <= j < |out|
    ensures out[i].actualRank <= out[j].actualRank
    ensures out[i].row.balance == out[j].row.balance ==> out[i].actualRank == out[j].actualRank
  {
    var rows := RowsOf(out);
    assert RankedAt(out[i], rows, i) && RankedAt(out[j], rows, j);
  }

  /** Balances 100, 100, 80 rank 1, T-1, 3; balances 100, 90, 80 rank 1, 2, 3. */
  lemma RankExamples(tie: seq<Ranked>, distinct: seq<Ranked>)
    requires CompetitionRanked(tie) && |tie| == 3
    requires tie[0].row.balance == 100.0 && tie[1].row.balance == 100.0 && tie[2].row.balance == 80.0
    requires CompetitionRanked(distinct) && |distinct| == 3
    requires distinct[0].row.balance == 100.0 && distinct[1].row.balance == 90.0 && distinct[2].row.balance == 80.0
    ensures tie[0].actualRank == 1 && tie[1].actualRank == 1 && tie[2].actualRank == 3
    ensures !tie[0].isTied && tie[1].isTied && !tie[2].isTied
    ensures tie[0].displayRank == "1" && tie[1].displayRank == "T-1" && tie[2].displayRank == "3"
    ensures distinct[0].actualRank == 1 && distinct[1].actualRank == 2 && distinct[2].actualRank == 3
    ensures !distinct[0].isTied && !distinct[1].isTied && !distinct[2].isTied
  {
    var t := RowsOf(tie);
    assert RankedAt(tie[0], t, 0) && RankedAt(tie[1], t, 1) && RankedAt(tie[2], t, 2);
    assert FirstWithBalance(t, 100.0) == 0;
    assert FirstWithBalance(t, 80.0) == 2;
    var d := RowsOf(distinct);
    assert RankedAt(distinct[0], d, 0) && RankedAt(distinct[1], d, 1) && RankedAt(distinct[2], d, 2);
    assert FirstWithBalance(d, 100.0) == 0;
    assert FirstWithBalance(d, 90.0) == 1;
    assert FirstWithBalance(d, 80.0) == 2;
    assert NatToString(1) == "1" && NatToString(3) == "3";
  }

  /** `top3 = list.slice(0, 3)` and `rest = list.slice(3)`. */
  function SplitTop3<T>(list: seq<T>): (parts: (seq<T>, seq<T>))
    ensures parts.0 + parts.1 == list
    ensures |parts.0| == if |list| < 3 then |list| else 3
  {
    if |list| < 3 then (list, []) else (list[..3], list[3..])
  }

  /** `findIndex` of the current user's entry: the first position whose profile id is
      `userId`, or -1. */
  function CurrentUserPosition(out: seq<Ranked>, userId: UserId): (pos: int)
    ensures -1 <= pos < |out|
    ensures pos >= 0 ==> out[pos].row.profile.id == userId && forall j :: 0 <= j < pos ==> out[j].row.profile.id != userId
    ensures pos == -1 <==> forall j :: 0 <= j < |out| ==> out[j].row.profile.id != userId
  {
    if |out| == 0 then -1
    else if out[0].row.profile.id == userId then 0
    else
      var p := CurrentUserPosition(out[1..], userId);
      if p == -1 then -1 else p + 1
  }

  /** The "Your Position" block is shown when the user's position is 3 or more. */
  predicate ShowsYourPosition(out: seq<Ranked>, userId: UserId)
    ensures ShowsYourPosition(out, userId) ==>
      3 <= CurrentUserPosition(out, userId) < |out| && out[CurrentUserPosition(out, userId)].row.profile.id == userId
    ensures !ShowsYourPosition(out, userId) ==>
      (forall j :: 0 <= j < |out| ==> out[j].row.profile.id != userId)
      || (exists i :: 0 <= i < 3 && i < |out| && out[i].row.profile.id == userId)
  {
    CurrentUserPosition(out, userId) >= 3
  }

  /** The block is shown exactly when the user is on the list but not in the top three. */
  lemma YourPositionIffBelowTop3(out: seq<Ranked>, userId: UserId)
    ensures ShowsYourPosition(out, userId) <==>
      (exists j :: 0 <= j < |out| && out[j].row.profile.id == userId)
      && (forall j :: 0 <= j < |SplitTop3(out).0| ==> SplitTop3(out).0[j].row.profile.id != userId)
  {
    var pos := CurrentUserPosition(out, userId);
    if pos >= 0 {
      assert out[pos].row.profile.id == userId;
    }
    if pos >= 0 && pos < 3 {
      assert SplitTop3(out).0[pos] == out[pos];
    }
  }

  /** `getRankIcon`: a medal for the display ranks "1", "2" and "3", nothing otherwise. */
  function RankIcon(displayRank: string): (icon: string)
    ensures icon != "" <==> displayRank == "1" || displayRank == "2" || displayRank == "3"
  {
    if displayRank == "1" then "\U{1F947}"
    else if displayRank == "2" then "\U{1F948}"
    else if displayRank == "3" then "\U{1F949}"
    else ""
  }

  /** `getRankColor`: a podium colour for "1", "2" and "3", the base colour otherwise. */
  function RankColor(displayRank: string): (color: string)
    ensures color != "text-base-content" <==> RankIcon(displayRank) != ""
  {
    if displayRank == "1" then "text-yellow-400"
    else if displayRank == "2" then "text-gray-300"
    else if displayRank == "3" then "text-amber-600"
    else "text-base-content"
  }

  /** A ranked entry gets a medal exactly when it is untied with rank 1, 2 or 3: a tied
      "T-1" gets none. */
  lemma MedalIffUntiedPodium(out: seq<Ranked>, i: int)
    requires CompetitionRanked(out) && 0 <= i < |out|
    ensures RankIcon(out[i].displayRank) != "" <==> !out[i].isTied && out[i].actualRank <= 3
  {
    assert RankedAt(out[i], RowsOf(out), i);
    var e := out[i];
    assert NatToString(1) == "1" && NatToString(2) == "2" && NatToString(3) == "3";
    if e.isTied {
      assert |e.displayRank| >= 3;
    } else if e.displayRank == "1" || e.displayRank == "2" || e.displayRank == "3" {
      if e.displayRank == "1" {
        NatToStringInjective(e.actualRank, 1);
      } else if e.displayRank == "2" {
        NatToStringInjective(e.actualRank, 2);
      } else {
        NatToStringInjective(e.actualRank, 3);
      }
    } else {
      assert e.actualRank != 1 && e.actualRank != 2 && e.actualRank != 3;
    }
  }
}

=== FILE: membership.dfy ===
/** Leaving and deleting a party. A member who is not the host may leave; only the host
    may delete, and deleting the party removes its memberships, its bets and the wagers
    on those bets (the store's cascading foreign keys). */
module PartyMembership {
  import opened Wrappers
  import opened Schema

  const FetchPartyFailed := "Failed to fetch party"
  const HostCannotLeave := "Party hosts cannot leave their own party. Please delete the party instead."
  const LeaveFailed := "Failed to leave party"
  const OnlyHostDeletes := "Only the party host can delete the party"
  const DeleteFailed := "Failed to delete party"

  /** `handleLeaveParty`: signed in, the party found, the user not its host; then the
      membership row `(user, party)` is deleted (deleting no row is no error). */
  function LeaveParty(db: Db, auth: Auth, partyId: PartyId, fetchFails: bool, deleteFails: bool): (r: Result<Db>)
    ensures auth.None? ==> r == Err(NotAuthenticated)
    ensures auth.Some? && HostOf(db, partyId, fetchFails).None? ==> r == Err(FetchPartyFailed)
    ensures auth.Some? && HostOf(db, partyId, fetchFails) == auth ==> r == Err(HostCannotLeave)
    ensures auth.Some? && HostOf(db, partyId, fetchFails).Some? && HostOf(db, partyId, fetchFails) != auth && deleteFails ==> r == Err(LeaveFailed)
    ensures r.Ok? <==> auth.Some? && HostOf(db, partyId, fetchFails).Some? && HostOf(db, partyId, fetchFails) != auth && !deleteFails
    ensures r.Ok? ==>
      && r.value == db.(members := r.value.members)
      && r.value.members.Keys == db.members.Keys - {(auth.value, partyId)}
      && forall k :: k in r.value.members ==> r.value.members[k] == db.members[k]
  {
    match auth
    case None => Err(NotAuthenticated)
    case Some(userId) =>
      match HostOf(db, partyId, fetchFails)
      case None => Err(FetchPartyFailed)
      case Some(hostId) =>
        if hostId == userId then Err(HostCannotLeave)
        else if deleteFails then Err(LeaveFailed)
        else Ok(db.(members := map k | k in db.members && k != (userId, partyId) :: db.members[k]))
  }

  /** The wagers placed on a bet of the party. */
  predicate OnPartyBet(db: Db, partyId: PartyId, w: Wager) {
    w.betId in db.bets && db.bets[w.betId].partyId == partyId
  }

  /** The store after `parties.delete().eq("id", partyId)` and its cascades. */
  function CascadeDelete(db: Db, partyId: PartyId): (r: Db)
    ensures r.profiles == db.profiles
    ensures r.parties.Keys == db.parties.Keys - {partyId}
    ensures forall k :: k in db.members ==> (k in r.members <==> k.1 != partyId)
    ensures forall b :: b in db.bets ==> (b in r.bets <==> db.bets[b].partyId != partyId)
    ensures forall w :: w in db.wagers ==> (w in r.wagers <==> !OnPartyBet(db, partyId, db.wagers[w]))
    ensures r.members.Keys <= db.members.Keys && r.bets.Keys <= db.bets.Keys && r.wagers.Keys <= db.wagers.Keys
    ensures forall p :: p in r.parties ==> r.parties[p] == db.parties[p]
    ensures forall k :: k in r.members ==> r.members[k] == db.members[k]
    ensures forall b :: b in r.bets ==> r.bets[b] == db.bets[b]
    ensures forall w :: w in r.wagers ==> r.wagers[w] == db.wagers[w]
  {
    Db(db.profiles,
       map p | p in db.parties && p != partyId :: db.parties[p],
       map k | k in db.members && k.1 != partyId :: db.members[k],
       map b | b in db.bets && db.bets[b].partyId != partyId :: db.bets[b],
       map w | w in db.wagers && !OnPartyBet(db, partyId, db.wagers[w]) :: db.wagers[w])
  }

  /** `handleDeleteParty`: signed in, the party found, the user its host; then the party
      and everything hanging off it are deleted. */
  function DeleteParty(db: Db, auth: Auth, partyId: PartyId, fetchFails: bool, deleteFails: bool): (r: Result<Db>)
    ensures auth.None? ==> r == Err(NotAuthenticated)
    ensures auth.Some? && HostOf(db, partyId, fetchFails).None? ==> r == Err(FetchPartyFailed)
    ensures auth.Some? && HostOf(db, partyId, fetchFails).Some? && HostOf(db, partyId, fetchFails) != auth ==> r == Err(OnlyHostDeletes)
    ensures auth.Some? && HostOf(db, partyId, fetchFails) == auth && deleteFails ==> r == Err(DeleteFailed)
    ensures r.Ok? <==> auth.Some? && HostOf(db, partyId, fetchFails) == auth && !deleteFails
    ensures r.Ok? ==>
      && r.value.profiles == db.profiles
      && r.value.parties.Keys == db.parties.Keys - {partyId}
      && (forall k :: k in r.value.members <==> k in db.members && k.1 != partyId)
      && (forall b :: b in r.value.bets <==> b in db.bets && db.bets[b].partyId != partyId)
      && (forall w :: w in r.value.wagers <==> w in db.wagers && !OnPartyBet(db, partyId, db.wagers[w]))
    ensures r.Ok? ==>
      && (forall p :: p in r.value.parties ==> r.value.parties[p] == db.parties[p])
      && (forall k :: k in r.value.members ==> r.value.members[k] == db.members[k])
      && (forall b :: b in r.value.bets ==> r.value.bets[b] == db.bets[b])
      && (forall w :: w in r.value.wagers ==> r.value.wagers[w] == db.wagers[w])
  {
    match auth
    case None => Err(NotAuthenticated)
    case Some(userId) =>
      match HostOf(db, partyId, fetchFails)
      case None => Err(FetchPartyFailed)
      case Some(hostId) =>
        if hostId != userId then Err(OnlyHostDeletes)
        else if deleteFails then Err(DeleteFailed)
        else Ok(CascadeDelete(db, partyId))
  }

  /** Once the party and its row lookup succeed, exactly one of the two actions passes
      the host check: the host can only delete, anyone else can only leave. */
  lemma LeaveOrDelete(db: Db, userId: UserId, partyId: PartyId)
    requires partyId in db.parties
    ensures LeaveParty(db, Some(userId), partyId, false, false).Ok? != DeleteParty(db, Some(userId), partyId, false, false).Ok?
    ensures db.parties[partyId].hostId == userId ==> LeaveParty(db, Some(userId), partyId, false, false) == Err(HostCannotLeave)
    ensures db.parties[partyId].hostId != userId ==> DeleteParty(db, Some(userId), partyId, false, false) == Err(OnlyHostDeletes)
  {
  }

  /** Leaving removes the user from that party only: other memberships, balances and
      tables are untouched, and leaving a party one is not in changes nothing. */
  lemma LeaveTouchesOneMembership(db: Db, userId: UserId, partyId: PartyId, other: PartyId)
    requires LeaveParty(db, Some(userId), partyId, false, false).Ok?
    ensures var db' := LeaveParty(db, Some(userId), partyId, false, false).value;
      && (userId, partyId) !in db'.members
      && (other != partyId && (userId, other) in db.members ==> (userId, other) in db'.members && db'.members[(userId, other)] == db.members[(userId, other)])
      && ((userId, partyId) !in db.members ==> db' == db)
  {
    var db' := LeaveParty(db, Some(userId), partyId, false, false).value;
    if (userId, partyId) !in db.members {
      assert db'.members == db.members;
    }
  }

  /** Leaving and deleting keep the store well formed. */
  lemma LeaveAndDeleteKeepWellFormed(db: Db, auth: Auth, partyId: PartyId, fetchFails: bool, deleteFails: bool)
    requires WellFormed(db)
    ensures LeaveParty(db, auth, partyId, fetchFails, deleteFails).Ok? ==> WellFormed(LeaveParty(db, auth, partyId, fetchFails, deleteFails).value)
    ensures DeleteParty(db, auth, partyId, fetchFails, deleteFails).Ok? ==> WellFormed(DeleteParty(db, auth, partyId, fetchFails, deleteFails).value)
  {
    if DeleteParty(db, auth, partyId, fetchFails, deleteFails).Ok? {
      var db' := CascadeDelete(db, partyId);
      forall w | w in db'.wagers ensures db'.wagers[w].betId in db'.bets {
        assert db.wagers[w].betId in db.bets;
      }
    }
  }

  /** After a deletion nothing refers to the party: no membership, no bet and no wager
      on one of its bets is left, and every other party's rows are kept. */
  lemma DeleteLeavesNoTrace(db: Db, auth: Auth, partyId: PartyId, k: (UserId, PartyId), b: BetId, w: WagerId)
    requires WellFormed(db)
    requires DeleteParty(db, auth, partyId, false, false).Ok?
    ensures var db' := DeleteParty(db, auth, partyId, false, false).value;
      && partyId !in db'.parties
      && (k in db'.members ==> k.1 != partyId)
      && (b in db'.bets ==> db'.bets[b].partyId != partyId)
      && (w in db'.wagers ==> db'.bets[db'.wagers[w].betId].partyId != partyId)
      && (k in db.members && k.1 != partyId ==> k in db'.members && db'.members[k] == db.members[k])
      && (w in db.wagers && db.bets[db.wagers[w].betId].partyId != partyId ==> w in db'.wagers)
  {
    LeaveAndDeleteKeepWellFormed(db, auth, partyId, false, false);
  }
}

=== FILE: navbar.dfy ===
/** The navigation bar: which party a path names, which layout a path gets, the name
    shown for the signed-in user and the state it loads when the location changes. */
module Navbar {
  import opened Wrappers
  import opened Text
  import opened Schema

  const PartiesPrefix := "/parties/"

  /** The characters the regular-expression `.` does not match. */
  predicate IsLineTerminator(c: char) {
    c == '\n' || c == '\r' || c == '\U{2028}' || c == '\U{2029}'
  }

  predicate NoLineTerminator(s: string) {
    forall i :: 0 <= i < |s| ==> !IsLineTerminator(s[i])
  }

  /** The path of a party's page. */
  function PartyPath(partyId: PartyId): string {
    PartiesPrefix + partyId
  }

  /** A party path splits back into the prefix and the id. */
  lemma PartyPathsSplit()
    ensures forall id {:trigger PartyPath(id)} ::
      |PartyPath(id)| == |PartiesPrefix| + |id| && StartsWith(PartyPath(id), PartiesPrefix) && PartyPath(id)[|PartiesPrefix|..] == id
  {
    forall id ensures StartsWith(PartyPath(id), PartiesPrefix) && PartyPath(id)[|PartiesPrefix|..] == id {
      assert PartyPath(id)[..|PartiesPrefix|] == PartiesPrefix;
    }
  }

  /** `pathname.match(/^\/parties\/(.+)$/)[1]`: everything after "/parties/", which must
      be non-empty and hold no line terminator (it may hold further slashes). */
  function PartyIdFromPath(path: string): (r: Option<PartyId>)
    ensures r.Some? ==> path == PartyPath(r.value)
    ensures forall id {:trigger PartyPath(id)} :: path == PartyPath(id) ==> (r == Some(id) <==> |id| > 0 && NoLineTerminator(id))
  {
    PartyPathsSplit();
    if |path| > |PartiesPrefix| && StartsWith(path, PartiesPrefix) && NoLineTerminator(path[|PartiesPrefix|..]) then
      Some(path[|PartiesPrefix|..])
    else
      None
  }

  /** `/^\/parties\/[^/]+$/.test(pathname)`: the party-details layout, for exactly one
      non-empty path segment after "/parties/". */
  predicate IsPartyDetailsPath(path: string)
    ensures IsPartyDetailsPath(path) ==> |path| > |PartiesPrefix| && path == PartyPath(path[|PartiesPrefix|..])
    ensures forall id {:trigger PartyPath(id)} :: path == PartyPath(id) ==> (IsPartyDetailsPath(path) <==> |id| > 0 && '/' !in id)
  {
    PartyPathsSplit();
    |path| > |PartiesPrefix| && StartsWith(path, PartiesPrefix) && '/' !in path[|PartiesPrefix|..]
  }

  /** The party id is read back from a party path exactly when the id is non-empty and
      has no line terminator, and any path that yields an id is that id's party path. */
  lemma PartyIdRoundTrip(partyId: PartyId, path: string)
    ensures PartyIdFromPath(PartyPath(partyId)) == Some(partyId) <==> |partyId| > 0 && NoLineTerminator(partyId)
    ensures PartyIdFromPath(path).Some? ==> path == PartyPath(PartyIdFromPath(path).value)
  {
    var p := PartyPath(partyId);
    assert p[|PartiesPrefix|..] == partyId;
    assert StartsWith(p, PartiesPrefix) by {
      assert p[..|PartiesPrefix|] == PartiesPrefix;
    }
    if PartyIdFromPath(path).Some? {
      assert path == path[..|PartiesPrefix|] + path[|PartiesPrefix|..];
    }
  }

  /** The list page and the bare prefix name no party and do not get the details layout. */
  lemma ListPathsNameNoParty()
    ensures PartyIdFromPath("/parties") == None && !IsPartyDetailsPath("/parties")
    ensures PartyIdFromPath("/parties/") == None && !IsPartyDetailsPath("/parties/")
  {
  }

  /** On a details path without line terminators the balance lookup finds the party id. */
  lemma DetailsPathNamesParty(path: string)
    requires IsPartyDetailsPath(path) && NoLineTerminator(path)
    ensures PartyIdFromPath(path) == Some(path[|PartiesPrefix|..])
    ensures '/' !in PartyIdFromPath(path).value
  {
    var rest := path[|PartiesPrefix|..];
    forall i | 0 <= i < |rest| ensures !IsLineTerminator(rest[i]) {
      assert rest[i] == path[|PartiesPrefix| + i];
    }
  }

  /** The two patterns disagree: a nested path names a party (so the balance is looked
      up for "a/b") without getting the details layout, and a segment with a line break
      gets the details layout without naming a party. */
  lemma PatternsDisagree()
    ensures PartyIdFromPath("/parties/a/b") == Some("a/b") && !IsPartyDetailsPath("/parties/a/b")
    ensures PartyIdFromPath("/parties/a\nb") == None && IsPartyDetailsPath("/parties/a\nb")
  {
    var nested := "/parties/a/b";
    assert nested[|PartiesPrefix|..] == "a/b";
    assert nested[|PartiesPrefix|..][1] == '/';
    var broken := "/parties/a\nb";
    assert broken[|PartiesPrefix|..] == "a\nb";
    assert IsLineTerminator(broken[|PartiesPrefix|..][1]);
  }

  /** A text column counts as present when it is non-null and non-empty. */
  predicate Truthy(text: Option<string>) {
    text.Some? && |text.value| > 0
  }

  /** The name in the menu: the full name, else the username, else "User". */
  function DisplayName(profile: Option<Profile>): (name: string)
    ensures |name| > 0
    ensures profile.Some? && Truthy(profile.value.fullName) ==> name == profile.value.fullName.value
    ensures profile.Some? && !Truthy(profile.value.fullName) && Truthy(profile.value.username) ==>
      name == profile.value.username.value
    ensures profile.None? || (!Truthy(profile.value.fullName) && !Truthy(profile.value.username)) ==> name == "User"
  {
    if profile.Some? && Truthy(profile.value.fullName) then profile.value.fullName.value
    else if profile.Some? && Truthy(profile.value.username) then profile.value.username.value
    else "User"
  }

  /** The "@username" line appears when both the username and the full name are present. */
  predicate ShowsUsernameLine(profile: Option<Profile>)
    ensures ShowsUsernameLine(profile) ==>
      profile.Some? && Truthy(profile.value.username) && Truthy(profile.value.fullName)
      && DisplayName(profile) == profile.value.fullName.value
    ensures profile.Some? && Truthy(profile.value.username) && Truthy(profile.value.fullName) ==> ShowsUsernameLine(profile)
  {
    profile.Some? && Truthy(profile.value.username) && Truthy(profile.value.fullName)
  }

  /** The username is shown at most once: with the "@username" line the name shown above
      it is the full name, and without a profile or without either name the menu reads
      "User". */
  lemma UsernameShownOnce(profile: Option<Profile>)
    ensures ShowsUsernameLine(profile) ==> DisplayName(profile) == profile.value.fullName.value
    ensures profile.None? ==> DisplayName(profile) == "User" && !ShowsUsernameLine(profile)
    ensures profile.Some? && !Truthy(profile.value.fullName) && Truthy(profile.value.username) ==>
      DisplayName(profile) == profile.value.username.value && !ShowsUsernameLine(profile)
    ensures profile.Some? && !Truthy(profile.value.fullName) && !Truthy(profile.value.username) ==>
      DisplayName(profile) == "User" && !ShowsUsernameLine(profile)
    ensures profile.Some? && Truthy(profile.value.username) && Truthy(profile.value.fullName) ==> ShowsUsernameLine(profile)
  {
  }

  /** What the bar holds: the signed-in user, the profile and the party balance shown. */
  datatype NavState = NavState(user: Option<UserId>, profile: Option<Profile>, balance: real)

  const InitialNav := NavState(None, None, 0.0)

  /** What the balance lookup leaves: the member's balance in the party the path names,
      when there is such a row and the query does not fail; the old balance otherwise. */
  function RefreshBalance(balance: real, userId: UserId, path: string, db: Db, balanceFails: bool): (b: real)
    ensures PartyIdFromPath(path).Some? && !balanceFails && (userId, PartyIdFromPath(path).value) in db.members ==>
      b == db.members[(userId, PartyIdFromPath(path).value)]
    ensures PartyIdFromPath(path).None? || balanceFails || (userId, PartyIdFromPath(path).value) !in db.members ==>
      b == balance
  {
    match PartyIdFromPath(path)
    case None => balance
    case Some(partyId) =>
      if !balanceFails && (userId, partyId) in db.members then db.members[(userId, partyId)] else balance
  }

  /** The effect run on every location change. Signed out, everything resets; signed in,
      the user is set, the profile replaced only when the lookup finds it, and the
      balance refreshed. */
  function OnLocationChange(state: NavState, auth: Auth, path: string, db: Db, profileFails: bool, balanceFails: bool): (r: NavState)
    ensures auth.None? ==> r == InitialNav
    ensures auth.Some? ==> r.user == auth
    ensures auth.Some? ==> r.profile == (if ProfileOf(db, auth.value, profileFails).Some? then ProfileOf(db, auth.value, profileFails) else state.profile)
    ensures auth.Some? ==> r.balance == RefreshBalance(state.balance, auth.value, path, db, balanceFails)
  {
    match auth
    case None => InitialNav
    case Some(userId) =>
      var found := ProfileOf(db, userId, profileFails);
      NavState(auth, if found.Some? then found else state.profile,
               RefreshBalance(state.balance, userId, path, db, balanceFails))
  }

  /** On a member's party page the bar shows that membership's balance. */
  lemma PartyPageShowsMemberBalance(state: NavState, userId: UserId, partyId: PartyId, db: Db)
    requires |partyId| > 0 && NoLineTerminator(partyId)
    requires (userId, partyId) in db.members
    ensures OnLocationChange(state, Some(userId), PartyPath(partyId), db, false, false).balance == db.members[(userId, partyId)]
  {
    PartyIdRoundTrip(partyId, PartyPath(partyId));
  }

  /** Away from party pages, or without a membership row, the previous balance stays on
      display: leaving party A for the party list still shows A's balance. */
  lemma BalanceKeptWithoutRow(state: NavState, userId: UserId, path: string, db: Db, profileFails: bool)
    requires PartyIdFromPath(path).None? || (userId, PartyIdFromPath(path).value) !in db.members
    ensures OnLocationChange(state, Some(userId), path, db, profileFails, false).balance == state.balance
  {
  }

  /** Signing out and loading again resets the bar whatever it showed. */
  lemma SignedOutResets(state: NavState, path: string, db: Db, profileFails: bool, balanceFails: bool)
    ensures OnLocationChange(state, None, path, db, profileFails, balanceFails) == InitialNav
    ensures DisplayName(InitialNav.profile) == "User"
  {
  }
}

=== FILE: odds.dfy ===
/** The payout rule of the bet-resolution dialog (`calculateWinnings`): a stake and
    American odds give the total amount returned to a winner, stake included. */
module Odds {
  import opened Wrappers
  import opened Text
  import opened IntParsing

  /** The decimal odds equivalent to American odds: what one unit staked returns.
      Positive odds are the profit on 100 staked, negative odds the stake that
      profits 100. Zero is not an odds value. */
  function DecimalOdds(american: int): (d: real)
    requires american != 0
    ensures d > 1.0
  {
    if american > 0 then 1.0 + (american as real) / 100.0
    else 1.0 + 100.0 / (-american as real)
  }

  /** The total return on `amount` at American `odds` (the arithmetic of
      `calculateWinnings`, on exact reals). */
  function Winnings(amount: real, odds: int): (r: real)
    requires odds != 0
    ensures r == amount * DecimalOdds(odds)
    ensures odds > 0 ==> (r - amount) * 100.0 == amount * (odds as real)
    ensures odds < 0 ==> (r - amount) * (-odds as real) == amount * 100.0
    ensures amount >= 0.0 ==> r >= amount
    ensures amount <= 0.0 ==> r <= amount
  {
    if odds > 0 then amount + (amount * (odds as real)) / 100.0
    else amount + (amount * 100.0) / (-odds as real)
  }

  /** The stake that returns `total` at American `odds`: the inverse of `Winnings`. */
  function StakeFor(total: real, odds: int): real
    requires odds != 0
  {
    total / DecimalOdds(odds)
  }

  /** Paying out and recovering the stake are inverse to each other. */
  lemma StakeForWinnings(amount: real, odds: int)
    requires odds != 0
    ensures StakeFor(Winnings(amount, odds), odds) == amount
    ensures Winnings(StakeFor(amount, odds), odds) == amount
  {
  }

  /** Odds text the payout rule can use: `parseInt` finds a number and it is not zero.
      Otherwise `calculateWinnings` computes `NaN` or an infinity. */
  predicate UsableOdds(oddsText: string) {
    ParseInt(oddsText).Some? && ParseInt(oddsText).value != 0
  }

  /** `calculateWinnings(amount, odds)`: the odds text is read with `parseInt`, then
      positive odds pay `amount * odds / 100` on top of the stake and the others pay
      `amount * 100 / |odds|`. */
  function CalculateWinnings(amount: real, oddsText: string): (r: real)
    requires UsableOdds(oddsText)
    ensures r == amount * DecimalOdds(ParseInt(oddsText).value)
    ensures amount >= 0.0 ==> r >= amount
  {
    Winnings(amount, ParseInt(oddsText).value)
  }

  lemma OddsTexts()
    ensures SignedText(120, true) == "+120"
    ensures SignedText(-150, false) == "-150"
    ensures SignedText(110, true) == "+110"
  {
    assert NatToString(120) == "120";
    assert NatToString(150) == "150";
    assert NatToString(110) == "110";
  }

  /** The odds texts of the examples parse as expected. */
  lemma ParseOddsExamples()
    ensures ParseInt("+120") == Some(120)
    ensures ParseInt("-150") == Some(-150)
    ensures ParseInt("+110") == Some(110)
  {
    OddsTexts();
    ParseSignedText(120, true, "");
    ParseSignedText(-150, false, "");
    ParseSignedText(110, true, "");
    assert "+120" + "" == "+120" && "-150" + "" == "-150" && "+110" + "" == "+110";
  }

  /** The payout on a text depends only on the number it parses to. */
  lemma PayoutOfParsed(amount: real, oddsText: string, odds: int)
    requires ParseInt(oddsText) == Some(odds) && odds != 0
    ensures UsableOdds(oddsText) && CalculateWinnings(amount, oddsText) == Winnings(amount, odds)
  {
  }

  /** Worked examples: 100 at +120 returns 220, 100 at -150 returns 166.66..., and
      50 at -150 returns 83.33... */
  lemma PayoutExamples()
    ensures UsableOdds("+120") && CalculateWinnings(100.0, "+120") == 220.0
    ensures UsableOdds("-150") && CalculateWinnings(100.0, "-150") == 500.0 / 3.0
    ensures CalculateWinnings(50.0, "-150") == 250.0 / 3.0
  {
    ParseOddsExamples();
    PayoutOfParsed(100.0, "+120", 120);
    PayoutOfParsed(100.0, "-150", -150);
    PayoutOfParsed(50.0, "-150", -150);
  }
}

=== FILE: parse_int.dfy ===
/** JavaScript's `parseInt(string)` with no radix argument, as the odds calculation
    applies it to a stored odds string such as "+110" or "-150". */
module IntParsing {
  import opened Wrappers
  import opened Text

  /** The characters `parseInt` skips before the number: white space (including the
      Unicode space separators) and line terminators. */
  predicate IsJsWhitespace(c: char) {
    || c == '\t' || c == '\n' || c == '\U{B}' || c == '\U{C}' || c == '\r' || c == ' '
    || c == '\U{A0}' || c == '\U{1680}' || ('\U{2000}' <= c <= '\U{200A}')
    || c == '\U{2028}' || c == '\U{2029}' || c == '\U{202F}' || c == '\U{205F}'
    || c == '\U{3000}' || c == '\U{FEFF}'
  }

  function TrimStart(s: string): (t: string)
    ensures |t| <= |s| && t == s[|s| - |t|..]
    ensures |t| > 0 ==> !IsJsWhitespace(t[0])
  {
    if |s| > 0 && IsJsWhitespace(s[0]) then TrimStart(s[1..]) else s
  }

  /** The value of `c` as a digit in radices up to 36: `0`-`9`, then `a`-`z` or `A`-`Z`
      for 10 to 35; 36 for any other character. */
  function DigitValue(c: char): (v: nat)
    ensures v <= 36
    ensures IsDigit(c) ==> v == (c as int) - ('0' as int)
  {
    if IsDigit(c) then (c as int) - ('0' as int)
    else if 'a' <= c <= 'z' then (c as int) - ('a' as int) + 10
    else if 'A' <= c <= 'Z' then (c as int) - ('A' as int) + 10
    else 36
  }

  predicate IsRadixDigit(c: char, radix: nat) {
    DigitValue(c) < radix
  }

  /** The longest prefix of `s` made of digits of the radix. */
  function DigitPrefix(s: string, radix: nat): (z: string)
    ensures |z| <= |s| && z == s[..|z|]
    ensures forall i :: 0 <= i < |z| ==> IsRadixDigit(z[i], radix)
    ensures |z| < |s| ==> !IsRadixDigit(s[|z|], radix)
  {
    if |s| == 0 || !IsRadixDigit(s[0], radix) then [] else [s[0]] + DigitPrefix(s[1..], radix)
  }

  lemma ProductNotNegative(a: nat, b: nat)
    ensures a * b >= 0
  {
  }

  /** The value of a string of radix digits, most significant first. */
  function RadixValue(z: string, radix: nat): nat
    requires forall i :: 0 <= i < |z| ==> IsRadixDigit(z[i], radix)
  {
    if |z| == 0 then 0
    else
      var v := RadixValue(z[..|z| - 1], radix);
      ProductNotNegative(v, radix);
      v * radix + DigitValue(z[|z| - 1])
  }

  /** The unsigned part of `parseInt`: radix 16 after a `0x`/`0X` prefix, otherwise
      radix 10, then the value of the longest run of digits; `None` when there is none. */
  function ParseMagnitude(u: string): Option<nat> {
    var hex := |u| >= 2 && u[0] == '0' && (u[1] == 'x' || u[1] == 'X');
    var radix := if hex then 16 else 10;
    var z := DigitPrefix(if hex then u[2..] else u, radix);
    if |z| == 0 then None else Some(RadixValue(z, radix))
  }

  /** `parseInt(s)`: skip leading white space, take an optional sign, then read the
      magnitude; `None` stands for `NaN`. A negative zero is reported as zero. */
  function ParseInt(s: string): (r: Option<int>)
    ensures r.Some? ==> var u := Unsigned(TrimStart(s)); |u| > 0 && DigitValue(u[0]) < 10
    ensures r.Some? && |TrimStart(s)| > 0 && TrimStart(s)[0] == '-' ==> r.value <= 0
    ensures r.Some? && (|TrimStart(s)| == 0 || TrimStart(s)[0] != '-') ==> r.value >= 0
  {
    ParseSigned(TrimStart(s))
  }

  /** `parseInt` after the white space: an optional sign, then the magnitude. */
  function ParseSigned(t: string): Option<int> {
    var negative := |t| > 0 && t[0] == '-';
    ApplySign(negative, ParseMagnitude(Unsigned(t)))
  }

  /** The text after an optional leading sign. */
  function Unsigned(t: string): string {
    if |t| > 0 && (t[0] == '+' || t[0] == '-') then t[1..] else t
  }

  function ApplySign(negative: bool, magnitude: Option<nat>): Option<int> {
    match magnitude
    case None => None
    case Some(m) => Some(if negative then -(m as int) else m as int)
  }

  /** A decimal rendering of an integer, with an explicit sign when asked. */
  function SignedText(n: int, plusSign: bool): string {
    if n < 0 then "-" + NatToString(-n)
    else if plusSign then "+" + NatToString(n)
    else NatToString(n)
  }

  lemma {:induction false} RadixValueIsDecimalValue(z: string)
    requires AllDigits(z)
    ensures forall i :: 0 <= i < |z| ==> IsRadixDigit(z[i], 10)
    ensures RadixValue(z, 10) == DecimalValue(z)
    decreases |z|
  {
    if |z| > 0 {
      RadixValueIsDecimalValue(z[..|z| - 1]);
    }
  }

  /** `rest` cannot extend a number written before it: it is empty or starts with a
      character that is neither a digit nor the `x` of a hexadecimal prefix. */
  predicate EndsNumber(rest: string) {
    |rest| == 0 || (!IsDigit(rest[0]) && rest[0] != 'x' && rest[0] != 'X')
  }

  /** The digits of a rendered number are read up to the first non-digit. */
  lemma {:induction false} DigitPrefixOfDigits(d: string, rest: string)
    requires AllDigits(d)
    requires |rest| > 0 ==> !IsDigit(rest[0])
    ensures DigitPrefix(d + rest, 10) == d
    decreases |d|
  {
    if |d| > 0 {
      assert (d + rest)[1..] == d[1..] + rest;
      DigitPrefixOfDigits(d[1..], rest);
      assert d == [d[0]] + d[1..];
    } else {
      assert d + rest == rest;
    }
  }

  /** A decimal number followed by anything but a digit has its own value as magnitude. */
  lemma MagnitudeOfDigits(d: string, rest: string)
    requires 1 <= |d| && AllDigits(d)
    requires EndsNumber(rest)
    ensures ParseMagnitude(d + rest) == Some(DecimalValue(d))
  {
    var u := d + rest;
    var hex := |u| >= 2 && u[0] == '0' && (u[1] == 'x' || u[1] == 'X');
    assert !hex by {
      if |u| >= 2 {
        if |d| >= 2 {
          assert u[1] == d[1];
          assert IsDigit(d[1]);
        } else {
          assert u[1] == rest[0];
        }
      }
    }
    DigitPrefixOfDigits(d, rest);
    RadixValueIsDecimalValue(d);
  }

  /** A sign in front of the magnitude. */
  lemma ParseAfterSign(sign: char, u: string)
    requires sign == '+' || sign == '-'
    ensures ParseInt([sign] + u) == ApplySign(sign == '-', ParseMagnitude(u))
  {
    var s := [sign] + u;
    assert !IsJsWhitespace(s[0]);
    assert TrimStart(s) == s;
    assert s[1..] == u;
  }

  /** No sign in front of the magnitude. */
  lemma ParseUnsigned(u: string)
    requires |u| > 0 && IsDigit(u[0])
    ensures ParseInt(u) == ApplySign(false, ParseMagnitude(u))
  {
    assert !IsJsWhitespace(u[0]);
    assert TrimStart(u) == u;
  }

  lemma ParseNegativeText(n: int, rest: string)
    requires n < 0 && EndsNumber(rest)
    ensures ParseInt(SignedText(n, false) + rest) == Some(n)
  {
    var m: nat := -n;
    var d := NatToString(m);
    MagnitudeOfDigits(d, rest);
    DecimalValueOfNatToString(m);
    assert SignedText(n, false) + rest == ['-'] + (d + rest);
    ParseAfterSign('-', d + rest);
  }

  lemma ParsePlusText(n: nat, rest: string)
    requires EndsNumber(rest)
    ensures ParseInt(SignedText(n, true) + rest) == Some(n)
  {
    var d := NatToString(n);
    MagnitudeOfDigits(d, rest);
    DecimalValueOfNatToString(n);
    assert SignedText(n, true) + rest == ['+'] + (d + rest);
    ParseAfterSign('+', d + rest);
  }

  lemma ParsePlainText(n: nat, rest: string)
    requires EndsNumber(rest)
    ensures ParseInt(SignedText(n, false) + rest) == Some(n)
  {
    var d := NatToString(n);
    MagnitudeOfDigits(d, rest);
    DecimalValueOfNatToString(n);
    assert SignedText(n, false) + rest == d + rest;
    ParseUnsigned(d + rest);
  }

  /** `parseInt` reads back any integer rendered in decimal, with or without a leading
      `+`, and ignores whatever follows the digits from the first non-digit on (unless the
      number is a lone 0 followed by `x`, which starts a hexadecimal number). */
  lemma ParseSignedText(n: int, plusSign: bool, rest: string)
    requires EndsNumber(rest)
    ensures ParseInt(SignedText(n, plusSign) + rest) == Some(n)
  {
    if n < 0 {
      if plusSign {
        assert SignedText(n, plusSign) == SignedText(n, false);
      }
      ParseNegativeText(n, rest);
    } else if plusSign {
      ParsePlusText(n, rest);
    } else {
      ParsePlainText(n, rest);
    }
  }

  /** Without a digit after the leading white space and the optional sign, `parseInt`
      yields `NaN`. */
  lemma NoDigitsIsNaN(s: string)
    requires var u := Unsigned(TrimStart(s)); |u| == 0 || DigitValue(u[0]) >= 10
    ensures ParseInt(s) == None
  {
  }

  /** A sign followed by nothing or by a non-digit (as in "-" or "+abc") gives `NaN`. */
  lemma SignWithoutDigitsIsNaN(sign: char, rest: string)
    requires sign == '+' || sign == '-'
    requires |rest| == 0 || DigitValue(rest[0]) >= 10
    ensures ParseInt([sign] + rest) == None
  {
    var s := [sign] + rest;
    assert !IsJsWhitespace(s[0]);
    assert TrimStart(s) == s;
    assert s[1..] == rest;
    NoDigitsIsNaN(s);
  }
}

=== FILE: route_guard.dfy ===
/** The route guard: it checks the session and (optionally) the profile, then shows a
    spinner, redirects to the login page or the profile form, or renders the page. */
module RouteGuard {
  import opened Wrappers
  import opened Schema

  /** What `supabase.auth.getUser()` does: return an error, throw, report no user, or
      report a signed-in user. */
  datatype AuthReply = AuthError | AuthThrew | NoUser | SignedIn(userId: UserId)

  datatype GuardState = GuardState(loading: bool, user: Option<UserId>, profile: Option<Profile>)

  const InitialGuard := GuardState(true, None, None)

  datatype View = Spinner | RedirectToLogin | RedirectToCreateProfile | Page

  /** What the guard renders. */
  function Decide(state: GuardState, requireProfile: bool): (v: View)
    ensures v == Spinner <==> state.loading
    ensures v == RedirectToLogin <==> !state.loading && state.user.None?
    ensures v == RedirectToCreateProfile <==> !state.loading && state.user.Some? && requireProfile && state.profile.None?
    ensures v == Page <==> !state.loading && state.user.Some? && (requireProfile ==> state.profile.Some?)
  {
    if state.loading then Spinner
    else if state.user.None? then RedirectToLogin
    else if requireProfile && state.profile.None? then RedirectToCreateProfile
    else Page
  }

  /** The check run on mount. An auth error or an exception counts as no user. With a
      user, the profile is looked up only when it is required, and the lookup's result
      (`None` when missing or failed) replaces the profile. Loading always ends. */
  function CheckAuth(state: GuardState, requireProfile: bool, reply: AuthReply, db: Db, profileFails: bool): (r: GuardState)
    ensures !r.loading
    ensures r.user.Some? <==> reply.SignedIn?
    ensures reply.SignedIn? ==> r.user == Some(reply.userId)
    ensures reply.SignedIn? && requireProfile ==> r.profile == ProfileOf(db, reply.userId, profileFails)
    ensures reply.SignedIn? && !requireProfile ==> r.profile == state.profile
    ensures !reply.SignedIn? ==> r.profile.None?
  {
    match reply
    case SignedIn(userId) =>
      GuardState(false, Some(userId), if requireProfile then ProfileOf(db, userId, profileFails) else state.profile)
    case _ => GuardState(false, None, None)
  }

  /** The listener for sign-in and sign-out events, with the session's user if any. */
  function OnAuthStateChange(state: GuardState, requireProfile: bool, session: Option<UserId>, db: Db, profileFails: bool): (r: GuardState)
    ensures !r.loading
    ensures r.user == session
    ensures session.Some? && requireProfile ==> r.profile == ProfileOf(db, session.value, profileFails)
    ensures session.Some? && !requireProfile ==> r.profile == state.profile
    ensures session.None? ==> r.profile.None?
  {
    match session
    case Some(userId) =>
      GuardState(false, session, if requireProfile then ProfileOf(db, userId, profileFails) else state.profile)
    case None => GuardState(false, None, None)
  }

  /** Before the check the guard shows a spinner, whatever is required. */
  lemma SpinnerUntilChecked(requireProfile: bool)
    ensures Decide(InitialGuard, requireProfile) == Spinner
  {
  }

  /** After the check on mount: the page renders exactly for a signed-in user who has a
      profile (or needs none); any other reply leads to the login page; a signed-in user
      without a profile is sent to the profile form, and only when one is required. */
  lemma CheckedRoute(requireProfile: bool, reply: AuthReply, db: Db, profileFails: bool)
    ensures var v := Decide(CheckAuth(InitialGuard, requireProfile, reply, db, profileFails), requireProfile);
      && (v == Page <==> reply.SignedIn? && (!requireProfile || ProfileOf(db, reply.userId, profileFails).Some?))
      && (v == RedirectToLogin <==> !reply.SignedIn?)
      && (v == RedirectToCreateProfile <==> reply.SignedIn? && requireProfile && ProfileOf(db, reply.userId, profileFails).None?)
      && v != Spinner
  {
  }

  /** Without the profile requirement the profile store is never consulted: the check
      ends the same whatever the store holds and whether or not a lookup would fail. */
  lemma NoLookupWithoutRequirement(state: GuardState, reply: AuthReply, db1: Db, fails1: bool, db2: Db, fails2: bool)
    ensures CheckAuth(state, false, reply, db1, fails1) == CheckAuth(state, false, reply, db2, fails2)
    ensures OnAuthStateChange(state, false, if reply.SignedIn? then Some(reply.userId) else None, db1, fails1)
         == OnAuthStateChange(state, false, if reply.SignedIn? then Some(reply.userId) else None, db2, fails2)
    ensures reply.SignedIn? ==> Decide(CheckAuth(state, false, reply, db1, fails1), false) == Page
  {
  }

  /** A failed profile lookup looks like a missing profile: the user is sent to the
      profile form even when the row exists. */
  lemma FailedLookupSendsToProfileForm(userId: UserId, db: Db)
    requires userId in db.profiles
    ensures Decide(CheckAuth(InitialGuard, true, SignedIn(userId), db, true), true) == RedirectToCreateProfile
    ensures Decide(CheckAuth(InitialGuard, true, SignedIn(userId), db, false), true) == Page
  {
  }

  /** A sign-out event sends the user to the login page from any state, and a sign-in
      event with a profile on file renders the page. */
  lemma AuthEventsRoute(state: GuardState, requireProfile: bool, userId: UserId, db: Db)
    ensures Decide(OnAuthStateChange(state, requireProfile, None, db, false), requireProfile) == RedirectToLogin
    ensures userId in db.profiles ==>
      Decide(OnAuthStateChange(state, requireProfile, Some(userId), db, false), requireProfile) == Page
  {
  }
}

=== FILE: schema.dfy ===
/** The rows the handlers read and write, abstracted as a store of keyed tables:
    `profiles`, `parties`, `party_members` (one balance per user and party), `bets`
    (the props of a party) and `wagers`. */
module Schema {
  import opened Wrappers

  type UserId = string
  type PartyId = string
  type BetId = string
  type WagerId = string

  /** A `profiles` row. Text columns may be null (`None`); an empty string is falsy too. */
  datatype Profile = Profile(
    id: UserId,
    username: Option<string>,
    fullName: Option<string>,
    bio: Option<string>,
    avatarUrl: Option<string>)

  /** A `parties` row: the columns the handlers use. */
  datatype Party = Party(name: string, hostId: UserId)

  /** The text of a prop: two named options, each with American odds written as text. */
  datatype BetInfo = BetInfo(
    title: string,
    description: string,
    option1: string,
    odds1: string,
    option2: string,
    odds2: string)

  /** A `bets` row; `resolvedAt` and `winningChoice` stay null until resolution. */
  datatype Bet = Bet(partyId: PartyId, info: BetInfo, resolvedAt: Option<int>, winningChoice: Option<string>)

  datatype WagerStatus = Active | Win | Loss

  /** A `wagers` row: the stake and the odds text captured when it was placed. */
  datatype Wager = Wager(
    userId: UserId,
    betId: BetId,
    choice: string,
    amount: real,
    odds: string,
    status: WagerStatus)

  /** The whole store. A membership is the key `(user, party)`; its value is the balance. */
  datatype Db = Db(
    profiles: map<UserId, Profile>,
    parties: map<PartyId, Party>,
    members: map<(UserId, PartyId), real>,
    bets: map<BetId, Bet>,
    wagers: map<WagerId, Wager>)

  /** Referential integrity, as the foreign keys of the tables keep it: memberships and
      bets belong to existing parties and wagers to existing bets. */
  predicate WellFormed(db: Db) {
    && (forall k :: k in db.members ==> k.1 in db.parties)
    && (forall b :: b in db.bets ==> db.bets[b].partyId in db.parties)
    && (forall w :: w in db.wagers ==> db.wagers[w].betId in db.bets)
  }

  /** The signed-in user as `supabase.auth.getUser()` reports it: `None` when there is
      no user or the call returns an error. */
  type Auth = Option<UserId>

  /** `profiles.select("*").eq("id", userId).single()`: the row, or `None` when there is
      none or the query fails (`fails`). */
  function ProfileOf(db: Db, userId: UserId, fails: bool): (p: Option<Profile>)
    ensures p.Some? <==> !fails && userId in db.profiles
    ensures p.Some? ==> p.value == db.profiles[userId]
  {
    if fails || userId !in db.profiles then None else Some(db.profiles[userId])
  }

  /** `parties.select("host_id").eq("id", partyId).single()`: the host, or `None` when
      the party is missing or the query fails. */
  function HostOf(db: Db, partyId: PartyId, fetchFails: bool): (h: Option<UserId>)
    ensures h.Some? <==> !fetchFails && partyId in db.parties
    ensures h.Some? ==> h.value == db.parties[partyId].hostId
  {
    if fetchFails || partyId !in db.parties then None else Some(db.parties[partyId].hostId)
  }

  const NotAuthenticated := "User not authenticated"
}

=== FILE: settlement.dfy ===
/** Bet resolution (`handleResolve` of the resolve dialog): the host names the winning
    choice; the bet is stamped resolved; each active wager of the bet becomes `win` or
    `loss`; each winner's membership balance is credited with the wager's winnings; the
    dialog reports how many winners there were and how much they won in total. */
module Settlement {
  import opened Wrappers
  import opened Schema
  import opened IntParsing
  import opened Odds

  /** Store calls that fail, as parameters: the lookup of the party's host, the query for
      the bet's wagers, the update of the bet, and (per wager) the status update or the
      balance credit. */
  datatype Faults = Faults(
    partyFetchFails: bool,
    wagerFetchFails: bool,
    betUpdateFails: bool,
    failedStatusUpdates: set<WagerId>,
    failedCredits: set<WagerId>)

  /** The numbers shown in the success notification. */
  datatype Report = Report(winners: nat, totalWinnings: real)

  const SelectWinner := "Please select the winning choice"
  const OnlyHost := "Only the party host can resolve bets"
  const FetchWagersFailed := "Failed to fetch wagers"
  const UpdateBetFailed := "Failed to update bet"

  predicate IsActiveWagerOf(wagers: map<WagerId, Wager>, betId: BetId, id: WagerId) {
    id in wagers && wagers[id].betId == betId && wagers[id].status == Active
  }

  predicate NoDuplicates(ids: seq<WagerId>) {
    forall i, j :: 0 <= i < j < |ids| ==> ids[i] != ids[j]
  }

  /** `order` is what the query for the bet's active wagers returns: each of them once,
      in an order the store chooses, and nothing else. */
  predicate ListsActiveWagers(wagers: map<WagerId, Wager>, betId: BetId, order: seq<WagerId>) {
    && NoDuplicates(order)
    && (forall i :: 0 <= i < |order| ==> IsActiveWagerOf(wagers, betId, order[i]))
    && (forall id | id in wagers :: IsActiveWagerOf(wagers, betId, id) ==> id in order)
  }

  function SettledStatus(w: Wager, winningChoice: string): WagerStatus {
    if w.choice == winningChoice then Win else Loss
  }

  /** A wager the loop pays: its status update goes through and it backed the winner. */
  predicate PaidWinner(snap: map<WagerId, Wager>, winningChoice: string, faults: Faults, id: WagerId)
    requires id in snap
  {
    id !in faults.failedStatusUpdates && snap[id].choice == winningChoice
  }

  /** The payout rule can be applied to `id` if the loop pays it. */
  predicate PayableId(snap: map<WagerId, Wager>, winningChoice: string, faults: Faults, id: WagerId) {
    id in snap && (PaidWinner(snap, winningChoice, faults, id) ==> UsableOdds(snap[id].odds))
  }

  predicate Payable(snap: map<WagerId, Wager>, winningChoice: string, faults: Faults, order: seq<WagerId>) {
    forall i :: 0 <= i < |order| ==> PayableId(snap, winningChoice, faults, order[i])
  }

  /** What wager `id` adds to the winnings total: its winnings if the loop pays it. */
  function PayoutOf(snap: map<WagerId, Wager>, winningChoice: string, faults: Faults, id: WagerId): real
    requires PayableId(snap, winningChoice, faults, id)
  {
    if PaidWinner(snap, winningChoice, faults, id) then CalculateWinnings(snap[id].amount, snap[id].odds) else 0.0
  }

  /** The number of wagers in `order` the loop pays. */
  function WinnerCount(snap: map<WagerId, Wager>, winningChoice: string, faults: Faults, order: seq<WagerId>): nat
    requires Payable(snap, winningChoice, faults, order)
  {
    if |order| == 0 then 0
    else (if PaidWinner(snap, winningChoice, faults, order[0]) then 1 else 0) + WinnerCount(snap, winningChoice, faults, order[1..])
  }

  /** The winnings of the wagers in `order` the loop pays. */
  function WinningsTotal(snap: map<WagerId, Wager>, winningChoice: string, faults: Faults, order: seq<WagerId>): real
    requires Payable(snap, winningChoice, faults, order)
  {
    if |order| == 0 then 0.0
    else PayoutOf(snap, winningChoice, faults, order[0]) + WinningsTotal(snap, winningChoice, faults, order[1..])
  }

  /** What wager `id` credits to `user`. */
  function CreditOf(snap: map<WagerId, Wager>, winningChoice: string, faults: Faults, id: WagerId, user: UserId): real
    requires PayableId(snap, winningChoice, faults, id)
  {
    if snap[id].userId == user && id !in faults.failedCredits then PayoutOf(snap, winningChoice, faults, id) else 0.0
  }

  /** The winnings credited to `user`: those of the user's paid wagers whose balance
      credit goes through. */
  function CreditTo(snap: map<WagerId, Wager>, winningChoice: string, faults: Faults, order: seq<WagerId>, user: UserId): real
    requires Payable(snap, winningChoice, faults, order)
  {
    if |order| == 0 then 0.0
    else CreditOf(snap, winningChoice, faults, order[0], user) + CreditTo(snap, winningChoice, faults, order[1..], user)
  }

  /** The wagers after the status update of `id`: `win` or `loss`, unless it fails. */
  function StatusesAfter(wagers: map<WagerId, Wager>, snap: map<WagerId, Wager>, winningChoice: string, faults: Faults, id: WagerId): map<WagerId, Wager>
    requires id in wagers && id in snap
  {
    if id in faults.failedStatusUpdates then wagers
    else wagers[id := wagers[id].(status := SettledStatus(snap[id], winningChoice))]
  }

  /** The balances after crediting `id`: a paid winner's membership in `partyId` gains
      the winnings when that membership exists and the credit goes through. */
  function BalancesAfter(members: map<(UserId, PartyId), real>, snap: map<WagerId, Wager>, partyId: PartyId, winningChoice: string, faults: Faults, id: WagerId): map<(UserId, PartyId), real>
    requires PayableId(snap, winningChoice, faults, id)
  {
    var key := (snap[id].userId, partyId);
    if PaidWinner(snap, winningChoice, faults, id) && key in members && id !in faults.failedCredits
    then members[key := members[key] + PayoutOf(snap, winningChoice, faults, id)]
    else members
  }

  /** The running report after `id`: a paid winner is counted and its winnings added. */
  function ReportAfter(acc: Report, snap: map<WagerId, Wager>, winningChoice: string, faults: Faults, id: WagerId): Report
    requires PayableId(snap, winningChoice, faults, id)
  {
    if PaidWinner(snap, winningChoice, faults, id)
    then Report(acc.winners + 1, acc.totalWinnings + PayoutOf(snap, winningChoice, faults, id))
    else acc
  }

  /** One iteration of the loop over the fetched wagers. `snap` is the fetched list (the
      loop reads the wager's choice, stake, odds and user from it). A failed status
      update skips the wager. A winner is counted, and its winnings are added to the
      member's balance in `partyId` when that membership exists and the credit goes
      through. */
  function SettleStep(db: Db, snap: map<WagerId, Wager>, partyId: PartyId, winningChoice: string, faults: Faults, id: WagerId, acc: Report): (Db, Report)
    requires PayableId(snap, winningChoice, faults, id) && id in db.wagers
  {
    (db.(wagers := StatusesAfter(db.wagers, snap, winningChoice, faults, id),
         members := BalancesAfter(db.members, snap, partyId, winningChoice, faults, id)),
     ReportAfter(acc, snap, winningChoice, faults, id))
  }

  /** The loop over the fetched wagers, in the order fetched, threading the winner count
      and the winnings total. It writes only wager statuses and balances. */
  function SettleAll(db: Db, snap: map<WagerId, Wager>, partyId: PartyId, winningChoice: string, faults: Faults, order: seq<WagerId>, acc: Report): (out: (Db, Report))
    requires Payable(snap, winningChoice, faults, order)
    requires forall i :: 0 <= i < |order| ==> order[i] in db.wagers
    ensures out.0.profiles == db.profiles && out.0.parties == db.parties && out.0.bets == db.bets
    ensures out.0.wagers.Keys == db.wagers.Keys && out.0.members.Keys == db.members.Keys
    decreases |order|
  {
    if |order| == 0 then (db, acc)
    else
      var step := SettleStep(db, snap, partyId, winningChoice, faults, order[0], acc);
      SettleAll(step.0, snap, partyId, winningChoice, faults, order[1..], step.1)
  }

  /** The loop sets the status of wager `id` if it is listed and its update goes
      through, and leaves it alone otherwise. */
  lemma {:induction false} SettleAllStatusOf(db: Db, snap: map<WagerId, Wager>, partyId: PartyId, winningChoice: string, faults: Faults, order: seq<WagerId>, acc: Report, id: WagerId)
    requires Payable(snap, winningChoice, faults, order)
    requires forall i :: 0 <= i < |order| ==> order[i] in db.wagers
    requires NoDuplicates(order) && id in db.wagers
    ensures SettleAll(db, snap, partyId, winningChoice, faults, order, acc).0.wagers[id] ==
      if id in order && id !in faults.failedStatusUpdates
      then db.wagers[id].(status := SettledStatus(snap[id], winningChoice))
      else db.wagers[id]
    decreases |order|
  {
    if |order| > 0 {
      var step := SettleStep(db, snap, partyId, winningChoice, faults, order[0], acc);
      NoDuplicatesTail(order);
      SettleAllStatusOf(step.0, snap, partyId, winningChoice, faults, order[1..], step.1, id);
      assert id in order <==> id == order[0] || id in order[1..] by {
        assert order == [order[0]] + order[1..];
      }
    }
  }

  /** The loop sets the status of each listed wager whose update goes through, and of
      no other wager. */
  lemma SettleAllStatuses(db: Db, snap: map<WagerId, Wager>, partyId: PartyId, winningChoice: string, faults: Faults, order: seq<WagerId>, acc: Report)
    requires Payable(snap, winningChoice, faults, order)
    requires forall i :: 0 <= i < |order| ==> order[i] in db.wagers
    requires NoDuplicates(order)
    ensures var out := SettleAll(db, snap, partyId, winningChoice, faults, order, acc);
      forall id :: id in db.wagers ==>
        out.0.wagers[id] ==
          if id in order && id !in faults.failedStatusUpdates
          then db.wagers[id].(status := SettledStatus(snap[id], winningChoice))
          else db.wagers[id]
  {
    forall id | id in db.wagers
      ensures SettleAll(db, snap, partyId, winningChoice, faults, order, acc).0.wagers[id] ==
        if id in order && id !in faults.failedStatusUpdates
        then db.wagers[id].(status := SettledStatus(snap[id], winningChoice))
        else db.wagers[id]
    {
      SettleAllStatusOf(db, snap, partyId, winningChoice, faults, order, acc, id);
    }
  }

  /** The tail of a list without repeats has none, and lacks the head. */
  lemma NoDuplicatesTail(ids: seq<WagerId>)
    requires NoDuplicates(ids) && |ids| > 0
    ensures NoDuplicates(ids[1..]) && ids[0] !in ids[1..]
  {
    forall j | 0 <= j < |ids[1..]| ensures ids[1..][j] != ids[0] {
      assert ids[1..][j] == ids[j + 1];
    }
  }

  /** One iteration adds to balance `k` what the wager credits to its user, if `k` is a
      membership of the party. */
  lemma SettleStepBalanceOf(db: Db, snap: map<WagerId, Wager>, partyId: PartyId, winningChoice: string, faults: Faults, id: WagerId, acc: Report, k: (UserId, PartyId))
    requires PayableId(snap, winningChoice, faults, id) && id in db.wagers && k in db.members
    ensures var m' := BalancesAfter(db.members, snap, partyId, winningChoice, faults, id);
      k in m' && m'[k] == db.members[k] + (if k.1 == partyId then CreditOf(snap, winningChoice, faults, id, k.0) else 0.0)
  {
    if k != (snap[id].userId, partyId) {
      assert k.1 != partyId || CreditOf(snap, winningChoice, faults, id, k.0) == 0.0;
    }
  }

  /** One iteration adds to each balance of the party what the wager credits to the
      member's user. */
  lemma SettleStepBalances(db: Db, snap: map<WagerId, Wager>, partyId: PartyId, winningChoice: string, faults: Faults, id: WagerId, acc: Report)
    requires PayableId(snap, winningChoice, faults, id) && id in db.wagers
    ensures var step := SettleStep(db, snap, partyId, winningChoice, faults, id, acc);
      && step.0.members.Keys == db.members.Keys
      && forall k :: k in db.members ==>
           step.0.members[k] == db.members[k] + (if k.1 == partyId then CreditOf(snap, winningChoice, faults, id, k.0) else 0.0)
  {
    var m' := BalancesAfter(db.members, snap, partyId, winningChoice, faults, id);
    assert SettleStep(db, snap, partyId, winningChoice, faults, id, acc).0.members == m';
    forall k | k in db.members
      ensures m'[k] == db.members[k] + (if k.1 == partyId then CreditOf(snap, winningChoice, faults, id, k.0) else 0.0)
    {
      SettleStepBalanceOf(db, snap, partyId, winningChoice, faults, id, acc, k);
    }
  }

  /** The loop adds to each balance of the party exactly the winnings credited to the
      member's user, and leaves the other balances alone. */
  lemma {:induction false} SettleAllBalances(db: Db, snap: map<WagerId, Wager>, partyId: PartyId, winningChoice: string, faults: Faults, order: seq<WagerId>, acc: Report)
    requires Payable(snap, winningChoice, faults, order)
    requires forall i :: 0 <= i < |order| ==> order[i] in db.wagers
    ensures var out := SettleAll(db, snap, partyId, winningChoice, faults, order, acc);
      forall k :: k in db.members ==>
        out.0.members[k] == db.members[k] + (if k.1 == partyId then CreditTo(snap, winningChoice, faults, order, k.0) else 0.0)
    decreases |order|
  {
    if |order| > 0 {
      var step := SettleStep(db, snap, partyId, winningChoice, faults, order[0], acc);
      SettleStepBalances(db, snap, partyId, winningChoice, faults, order[0], acc);
      SettleAllBalances(step.0, snap, partyId, winningChoice, faults, order[1..], step.1);
      var out := SettleAll(db, snap, partyId, winningChoice, faults, order, acc);
      assert out == SettleAll(step.0, snap, partyId, winningChoice, faults, order[1..], step.1);
      forall k | k in db.members
        ensures out.0.members[k] == db.members[k] + (if k.1 == partyId then CreditTo(snap, winningChoice, faults, order, k.0) else 0.0)
      {
        assert k in step.0.members;
      }
    }
  }

  /** The loop's count and total add up the paid wagers. */
  lemma {:induction false} SettleAllReport(db: Db, snap: map<WagerId, Wager>, partyId: PartyId, winningChoice: string, faults: Faults, order: seq<WagerId>, acc: Report)
    requires Payable(snap, winningChoice, faults, order)
    requires forall i :: 0 <= i < |order| ==> order[i] in db.wagers
    ensures SettleAll(db, snap, partyId, winningChoice, faults, order, acc).1
            == Report(acc.winners + WinnerCount(snap, winningChoice, faults, order),
                      acc.totalWinnings + WinningsTotal(snap, winningChoice, faults, order))
    decreases |order|
  {
    if |order| > 0 {
      var step := SettleStep(db, snap, partyId, winningChoice, faults, order[0], acc);
      SettleAllReport(step.0, snap, partyId, winningChoice, faults, order[1..], step.1);
    }
  }

  /** The requester is signed in and the party lookup succeeds and names them as host;
      a failed lookup is reported like a wrong host. */
  predicate HostConfirmed(db: Db, partyId: PartyId, requester: Auth, faults: Faults) {
    requester.Some? && HostOf(db, partyId, faults.partyFetchFails) == requester
  }

  /** `handleResolve`. The checks run in `handleResolve`'s order: a winning choice must be
      selected, a user signed in, that user must host the party, and the wager query and
      the bet update must succeed; any failure reports its message and writes nothing.
      Then the bet is stamped with `now` and the winning choice (whether or not it was
      resolved before) and the fetched wagers are settled one by one. */
  function Resolve(db: Db, betId: BetId, partyId: PartyId, winningChoice: string, requester: Auth,
                   order: seq<WagerId>, faults: Faults, now: int): (r: Result<(Db, Report)>)
    requires ListsActiveWagers(db.wagers, betId, order)
    requires (winningChoice != "" && HostConfirmed(db, partyId, requester, faults) && !faults.wagerFetchFails && !faults.betUpdateFails)
             ==> Payable(db.wagers, winningChoice, faults, order)
    ensures winningChoice == "" ==> r == Err(SelectWinner)
    ensures winningChoice != "" && requester.None? ==> r == Err(NotAuthenticated)
    ensures winningChoice != "" && requester.Some? && !HostConfirmed(db, partyId, requester, faults) ==> r == Err(OnlyHost)
    ensures winningChoice != "" && HostConfirmed(db, partyId, requester, faults) && faults.wagerFetchFails ==> r == Err(FetchWagersFailed)
    ensures winningChoice != "" && HostConfirmed(db, partyId, requester, faults) && !faults.wagerFetchFails && faults.betUpdateFails ==> r == Err(UpdateBetFailed)
    ensures r.Ok? <==>
      && winningChoice != "" && HostConfirmed(db, partyId, requester, faults)
      && !faults.wagerFetchFails && !faults.betUpdateFails
    ensures r.Ok? ==>
      var db' := r.value.0;
      && db'.profiles == db.profiles && db'.parties == db.parties
      && db'.bets == (if betId in db.bets
                      then db.bets[betId := db.bets[betId].(resolvedAt := Some(now), winningChoice := Some(winningChoice))]
                      else db.bets)
      && db'.wagers.Keys == db.wagers.Keys
      && (forall id :: id in db.wagers ==>
            db'.wagers[id] ==
              if IsActiveWagerOf(db.wagers, betId, id) && id !in faults.failedStatusUpdates
              then db.wagers[id].(status := SettledStatus(db.wagers[id], winningChoice))
              else db.wagers[id])
      && db'.members.Keys == db.members.Keys
      && (forall k :: k in db.members ==>
            db'.members[k] == db.members[k] + (if k.1 == partyId then CreditTo(db.wagers, winningChoice, faults, order, k.0) else 0.0))
    ensures r.Ok? ==> r.value.1 == Report(WinnerCount(db.wagers, winningChoice, faults, order),
                                           WinningsTotal(db.wagers, winningChoice, faults, order))
  {
    if winningChoice == "" then Err(SelectWinner)
    else if requester.None? then Err(NotAuthenticated)
    else if !HostConfirmed(db, partyId, requester, faults) then Err(OnlyHost)
    else if faults.wagerFetchFails then Err(FetchWagersFailed)
    else if faults.betUpdateFails then Err(UpdateBetFailed)
    else
      var bets' := if betId in db.bets
                   then db.bets[betId := db.bets[betId].(resolvedAt := Some(now), winningChoice := Some(winningChoice))]
                   else db.bets;
      var db1 := db.(bets := bets');
      var acc := Report(0, 0.0);
      SettleAllStatuses(db1, db.wagers, partyId, winningChoice, faults, order, acc);
      SettleAllBalances(db1, db.wagers, partyId, winningChoice, faults, order, acc);
      SettleAllReport(db1, db.wagers, partyId, winningChoice, faults, order, acc);
      Ok(SettleAll(db1, db.wagers, partyId, winningChoice, faults, order, acc))
  }

  /** A user none of whose listed wagers is a paid winner is credited nothing. */
  lemma {:induction false} NoWinsNoCredit(snap: map<WagerId, Wager>, winningChoice: string, faults: Faults, order: seq<WagerId>, user: UserId)
    requires Payable(snap, winningChoice, faults, order)
    requires forall i :: 0 <= i < |order| && snap[order[i]].userId == user ==> !PaidWinner(snap, winningChoice, faults, order[i])
    ensures CreditTo(snap, winningChoice, faults, order, user) == 0.0
    decreases |order|
  {
    if |order| > 0 {
      NoWinsNoCredit(snap, winningChoice, faults, order[1..], user);
    }
  }

  /** With no negative stake among the listed wagers, credits and the total are never
      negative, and the total covers every user's credit. */
  lemma {:induction false} CreditsNotNegative(snap: map<WagerId, Wager>, winningChoice: string, faults: Faults, order: seq<WagerId>, user: UserId)
    requires Payable(snap, winningChoice, faults, order)
    requires forall i :: 0 <= i < |order| ==> snap[order[i]].amount >= 0.0
    ensures 0.0 <= CreditTo(snap, winningChoice, faults, order, user) <= WinningsTotal(snap, winningChoice, faults, order)
    decreases |order|
  {
    if |order| > 0 {
      CreditsNotNegative(snap, winningChoice, faults, order[1..], user);
    }
  }

  /** Only winners' balances change: a member whose active wagers on the bet all lost
      (or were skipped) keeps the balance. */
  lemma LoserBalanceUnchanged(db: Db, betId: BetId, partyId: PartyId, winningChoice: string, requester: Auth,
                              order: seq<WagerId>, faults: Faults, now: int, user: UserId)
    requires ListsActiveWagers(db.wagers, betId, order)
    requires Payable(db.wagers, winningChoice, faults, order)
    requires Resolve(db, betId, partyId, winningChoice, requester, order, faults, now).Ok?
    requires (user, partyId) in db.members
    requires forall id :: IsActiveWagerOf(db.wagers, betId, id) && db.wagers[id].userId == user
               ==> !PaidWinner(db.wagers, winningChoice, faults, id)
    ensures Resolve(db, betId, partyId, winningChoice, requester, order, faults, now).value.0.members[(user, partyId)]
            == db.members[(user, partyId)]
  {
    NoWinsNoCredit(db.wagers, winningChoice, faults, order, user);
  }

  /** Resolution never lowers a balance when no stake is negative. */
  lemma ResolveNeverDebits(db: Db, betId: BetId, partyId: PartyId, winningChoice: string, requester: Auth,
                           order: seq<WagerId>, faults: Faults, now: int, k: (UserId, PartyId))
    requires ListsActiveWagers(db.wagers, betId, order)
    requires Payable(db.wagers, winningChoice, faults, order)
    requires Resolve(db, betId, partyId, winningChoice, requester, order, faults, now).Ok?
    requires forall id :: id in db.wagers ==> db.wagers[id].amount >= 0.0
    requires k in db.members
    ensures Resolve(db, betId, partyId, winningChoice, requester, order, faults, now).value.0.members[k] >= db.members[k]
  {
    CreditsNotNegative(db.wagers, winningChoice, faults, order, k.0);
  }

  /** When every status update goes through, no wager of the bet is left active: a
      new query for them returns nothing. */
  lemma ResolveSettlesEveryWager(db: Db, betId: BetId, partyId: PartyId, winningChoice: string, requester: Auth,
                                 order: seq<WagerId>, faults: Faults, now: int)
    requires ListsActiveWagers(db.wagers, betId, order)
    requires Payable(db.wagers, winningChoice, faults, order)
    requires Resolve(db, betId, partyId, winningChoice, requester, order, faults, now).Ok?
    requires forall i :: 0 <= i < |order| ==> order[i] !in faults.failedStatusUpdates
    ensures ListsActiveWagers(Resolve(db, betId, partyId, winningChoice, requester, order, faults, now).value.0.wagers, betId, [])
  {
    var db' := Resolve(db, betId, partyId, winningChoice, requester, order, faults, now).value.0;
    forall id | id in db'.wagers
      ensures !IsActiveWagerOf(db'.wagers, betId, id)
    {
      if IsActiveWagerOf(db.wagers, betId, id) {
        assert id in order;
      }
    }
  }

  /** Resolving a bet that has no active wager left (the query returns nothing, as after
      a complete earlier resolution) credits nobody, reports no winner and leaves every
      wager as it was. `handleResolve` does not refuse it: only the bet's winning choice and
      timestamp are overwritten. */
  lemma ReResolveCreditsNobody(db: Db, betId: BetId, partyId: PartyId, winningChoice: string, requester: Auth,
                               faults: Faults, now: int)
    requires ListsActiveWagers(db.wagers, betId, [])
    requires Resolve(db, betId, partyId, winningChoice, requester, [], faults, now).Ok?
    ensures var (db', report) := Resolve(db, betId, partyId, winningChoice, requester, [], faults, now).value;
            db'.members == db.members && db'.wagers == db.wagers && report == Report(0, 0.0)
  {
    var db' := Resolve(db, betId, partyId, winningChoice, requester, [], faults, now).value.0;
    assert db'.members == db.members;
    assert db'.wagers == db.wagers;
  }

  /** A second successful resolution right after a complete first one pays nothing more:
      the balances after both are those after the first. */
  lemma SecondResolvePaysNothing(db: Db, betId: BetId, partyId: PartyId, winningChoice: string, requester: Auth,
                                 order: seq<WagerId>, faults: Faults, now: int,
                                 winningChoice2: string, requester2: Auth, faults2: Faults, now2: int)
    requires ListsActiveWagers(db.wagers, betId, order)
    requires Payable(db.wagers, winningChoice, faults, order)
    requires Resolve(db, betId, partyId, winningChoice, requester, order, faults, now).Ok?
    requires forall i :: 0 <= i < |order| ==> order[i] !in faults.failedStatusUpdates
    requires winningChoice2 != "" && requester2 == requester && !faults2.partyFetchFails && !faults2.wagerFetchFails && !faults2.betUpdateFails
    ensures var db1 := Resolve(db, betId, partyId, winningChoice, requester, order, faults, now).value.0;
            && ListsActiveWagers(db1.wagers, betId, [])
            && Resolve(db1, betId, partyId, winningChoice2, requester2, [], faults2, now2).Ok?
            && var (db2, report2) := Resolve(db1, betId, partyId, winningChoice2, requester2, [], faults2, now2).value;
               db2.members == db1.members && report2 == Report(0, 0.0)
  {
    var db1 := Resolve(db, betId, partyId, winningChoice, requester, order, faults, now).value.0;
    ResolveSettlesEveryWager(db, betId, partyId, winningChoice, requester, order, faults, now);
    ReResolveCreditsNobody(db1, betId, partyId, winningChoice2, requester2, faults2, now2);
  }

  /** Resolution keeps the store's referential integrity. */
  lemma ResolvePreservesWellFormed(db: Db, betId: BetId, partyId: PartyId, winningChoice: string, requester: Auth,
                                   order: seq<WagerId>, faults: Faults, now: int)
    requires WellFormed(db)
    requires ListsActiveWagers(db.wagers, betId, order)
    requires Payable(db.wagers, winningChoice, faults, order)
    requires Resolve(db, betId, partyId, winningChoice, requester, order, faults, now).Ok?
    ensures WellFormed(Resolve(db, betId, partyId, winningChoice, requester, order, faults, now).value.0)
  {
    var db' := Resolve(db, betId, partyId, winningChoice, requester, order, faults, now).value.0;
    assert forall w :: w in db'.wagers ==> db'.wagers[w].betId == db.wagers[w].betId;
  }

  /** The store of the worked example, after both stakes were taken from a starting
      balance of 100: A staked 50 on "Option1" at -150, B staked 30 on "Option2" at +120. */
  function ScenarioDb(): Db {
    Db(map[],
       map["p" := Party("Party", "h")],
       map[("a", "p") := 50.0, ("b", "p") := 70.0],
       map["bet" := Bet("p", BetInfo("Who wins?", "", "Option1", "-150", "Option2", "+120"), None, None)],
       map["wa" := Wager("a", "bet", "Option1", 50.0, "-150", Active),
           "wb" := Wager("b", "bet", "Option2", 30.0, "+120", Active)])
  }

  const NoFaults := Faults(false, false, false, {}, {})

  const ScenarioOrder: seq<WagerId> := ["wa", "wb"]

  lemma ScenarioWagers()
    ensures ScenarioDb().wagers.Keys == {"wa", "wb"}
    ensures ScenarioDb().wagers["wa"] == Wager("a", "bet", "Option1", 50.0, "-150", Active)
    ensures ScenarioDb().wagers["wb"] == Wager("b", "bet", "Option2", 30.0, "+120", Active)
  {
  }

  lemma ScenarioListed()
    ensures ListsActiveWagers(ScenarioDb().wagers, "bet", ScenarioOrder)
  {
    ScenarioWagers();
    var w := ScenarioDb().wagers;
    assert IsActiveWagerOf(w, "bet", "wa") && IsActiveWagerOf(w, "bet", "wb");
    assert "wa" != "wb" by { assert "wa"[1] != "wb"[1]; }
  }

  lemma PayableOfTwo(snap: map<WagerId, Wager>, winningChoice: string, faults: Faults, a: WagerId, b: WagerId)
    requires PayableId(snap, winningChoice, faults, a) && PayableId(snap, winningChoice, faults, b)
    ensures Payable(snap, winningChoice, faults, [a, b])
  {
  }

  lemma ScenarioPayable()
    ensures Payable(ScenarioDb().wagers, "Option1", NoFaults, ScenarioOrder)
  {
    ScenarioPayoutA();
    ScenarioPayoutB();
    PayableOfTwo(ScenarioDb().wagers, "Option1", NoFaults, "wa", "wb");
  }

  lemma ScenarioOrderParts()
    ensures ScenarioOrder[0] == "wa" && ScenarioOrder[1..] == ["wb"] && ScenarioOrder[1..][1..] == []
  {
  }

  lemma ScenarioPayoutA()
    ensures PayableId(ScenarioDb().wagers, "Option1", NoFaults, "wa")
    ensures PayoutOf(ScenarioDb().wagers, "Option1", NoFaults, "wa") == 250.0 / 3.0
  {
    ScenarioWagers();
    PayoutExamples();
  }

  lemma ScenarioPayoutB()
    ensures PayableId(ScenarioDb().wagers, "Option1", NoFaults, "wb")
    ensures PayoutOf(ScenarioDb().wagers, "Option1", NoFaults, "wb") == 0.0
  {
    ScenarioWagers();
    assert "Option2" != "Option1" by { assert "Option2"[6] != "Option1"[6]; }
  }

  lemma CreditToOfTwo(snap: map<WagerId, Wager>, winningChoice: string, faults: Faults, a: WagerId, b: WagerId, user: UserId)
    requires PayableId(snap, winningChoice, faults, a) && PayableId(snap, winningChoice, faults, b)
    ensures Payable(snap, winningChoice, faults, [a, b])
    ensures CreditTo(snap, winningChoice, faults, [a, b], user) ==
      CreditOf(snap, winningChoice, faults, a, user) + CreditOf(snap, winningChoice, faults, b, user)
  {
    assert [a, b][1..] == [b] && [b][1..] == [];
    assert CreditTo(snap, winningChoice, faults, [b], user) == CreditOf(snap, winningChoice, faults, b, user);
  }

  lemma CreditOfOwner(snap: map<WagerId, Wager>, winningChoice: string, faults: Faults, id: WagerId, user: UserId)
    requires PayableId(snap, winningChoice, faults, id) && faults.failedCredits == {}
    ensures CreditOf(snap, winningChoice, faults, id, user) ==
      if snap[id].userId == user then PayoutOf(snap, winningChoice, faults, id) else 0.0
  {
  }

  lemma ScenarioCreditA()
    ensures Payable(ScenarioDb().wagers, "Option1", NoFaults, ScenarioOrder)
    ensures CreditTo(ScenarioDb().wagers, "Option1", NoFaults, ScenarioOrder, "a") == 250.0 / 3.0
  {
    var snap := ScenarioDb().wagers;
    ScenarioPayoutA();
    ScenarioPayoutB();
    ScenarioWagers();
    assert "b" != "a" by { assert "a"[0] != "b"[0]; }
    CreditOfOwner(snap, "Option1", NoFaults, "wa", "a");
    CreditOfOwner(snap, "Option1", NoFaults, "wb", "a");
    CreditToOfTwo(snap, "Option1", NoFaults, "wa", "wb", "a");
  }

  lemma ScenarioCreditB()
    ensures Payable(ScenarioDb().wagers, "Option1", NoFaults, ScenarioOrder)
    ensures CreditTo(ScenarioDb().wagers, "Option1", NoFaults, ScenarioOrder, "b") == 0.0
  {
    var snap := ScenarioDb().wagers;
    ScenarioPayoutA();
    ScenarioPayoutB();
    ScenarioWagers();
    assert "a" != "b" by { assert "a"[0] != "b"[0]; }
    CreditOfOwner(snap, "Option1", NoFaults, "wa", "b");
    CreditOfOwner(snap, "Option1", NoFaults, "wb", "b");
    CreditToOfTwo(snap, "Option1", NoFaults, "wa", "wb", "b");
  }

  lemma ScenarioCredits()
    ensures Payable(ScenarioDb().wagers, "Option1", NoFaults, ScenarioOrder)
    ensures CreditTo(ScenarioDb().wagers, "Option1", NoFaults, ScenarioOrder, "a") == 250.0 / 3.0
    ensures CreditTo(ScenarioDb().wagers, "Option1", NoFaults, ScenarioOrder, "b") == 0.0
  {
    ScenarioCreditA();
    ScenarioCreditB();
  }

  lemma ScenarioReport()
    ensures Payable(ScenarioDb().wagers, "Option1", NoFaults, ScenarioOrder)
    ensures WinnerCount(ScenarioDb().wagers, "Option1", NoFaults, ScenarioOrder) == 1
    ensures WinningsTotal(ScenarioDb().wagers, "Option1", NoFaults, ScenarioOrder) == 250.0 / 3.0
  {
    ScenarioPayable();
    ScenarioPayoutA();
    ScenarioPayoutB();
    ScenarioOrderParts();
    ScenarioWagers();
  }

  lemma ScenarioHost()
    ensures "p" in ScenarioDb().parties && ScenarioDb().parties["p"].hostId == "h"
    ensures HostConfirmed(ScenarioDb(), "p", Some("h"), NoFaults)
    ensures ScenarioDb().members.Keys == {("a", "p"), ("b", "p")}
    ensures ScenarioDb().members[("a", "p")] == 50.0 && ScenarioDb().members[("b", "p")] == 70.0
    ensures "bet" in ScenarioDb().bets
  {
  }

  lemma ScenarioBalances(now: int)
    ensures ListsActiveWagers(ScenarioDb().wagers, "bet", ScenarioOrder)
    ensures Payable(ScenarioDb().wagers, "Option1", NoFaults, ScenarioOrder)
    ensures var r := Resolve(ScenarioDb(), "bet", "p", "Option1", Some("h"), ScenarioOrder, NoFaults, now);
      && r.Ok?
      && r.value.0.members[("a", "p")] == 50.0 + 250.0 / 3.0
      && r.value.0.members[("b", "p")] == 70.0
  {
    ScenarioListed();
    ScenarioCredits();
    ScenarioHost();
  }

  lemma ScenarioOutcome(now: int)
    ensures ListsActiveWagers(ScenarioDb().wagers, "bet", ScenarioOrder)
    ensures Payable(ScenarioDb().wagers, "Option1", NoFaults, ScenarioOrder)
    ensures var r := Resolve(ScenarioDb(), "bet", "p", "Option1", Some("h"), ScenarioOrder, NoFaults, now);
      && r.Ok?
      && r.value.0.wagers["wa"].status == Win
      && r.value.0.wagers["wb"].status == Loss
      && r.value.0.bets["bet"].winningChoice == Some("Option1")
      && r.value.1 == Report(1, 250.0 / 3.0)
  {
    ScenarioListed();
    ScenarioReport();
    ScenarioHost();
    ScenarioWagers();
    var w := ScenarioDb().wagers;
    assert IsActiveWagerOf(w, "bet", "wa") && IsActiveWagerOf(w, "bet", "wb");
    assert "Option2" != "Option1" by { assert "Option2"[6] != "Option1"[6]; }
  }

  /** The worked example: the host resolves for "Option1". A's balance becomes
      50 + 83.33... = 133.33..., B's stays 70, A's wager wins and B's loses, and the
      dialog reports one winner who won 83.33... */
  lemma ResolveScenario(now: int)
    ensures ListsActiveWagers(ScenarioDb().wagers, "bet", ScenarioOrder)
    ensures Payable(ScenarioDb().wagers, "Option1", NoFaults, ScenarioOrder)
    ensures var r := Resolve(ScenarioDb(), "bet", "p", "Option1", Some("h"), ScenarioOrder, NoFaults, now);
      && r.Ok?
      && r.value.0.members[("a", "p")] == 50.0 + 250.0 / 3.0
      && r.value.0.members[("b", "p")] == 70.0
      && r.value.0.wagers["wa"].status == Win
      && r.value.0.wagers["wb"].status == Loss
      && r.value.0.bets["bet"].winningChoice == Some("Option1")
      && r.value.1 == Report(1, 250.0 / 3.0)
  {
    ScenarioBalances(now);
    ScenarioOutcome(now);
  }
}

=== FILE: signup.dfy ===
/** The sign-up form: the password checks made before the account is requested, the
    message shown afterwards and how that message is styled. */
module SignUpForm {
  import opened Text

  /** What `supabase.auth.signUp` does: succeed, return an error message, or throw. */
  datatype SignUpReply = Created | Rejected(message: string) | Threw

  /** The message shown, whether the account was requested and whether the page moves
      on to the login page (after a two-second delay). */
  datatype SignUpOutcome = SignUpOutcome(message: string, signUpCalled: bool, redirectsToLogin: bool)

  // The longer messages are written in pieces; each reads as one string.
  const PasswordsDiffer := "Passwords do not match"
  const PasswordTooShort := "Password must be " + "at least 6 characters long"
  const AccountCreated := "Account created " + "successfully" +
    "! Please check your email " + "to verify your account " + "before logging in."
  const UnexpectedError := "An unexpected " + "error occurred. " + "Please try again."
  const MinPasswordLength := 6

  /** `handleSignUp`: the confirmation must equal the password, then the password must
      have at least six UTF-16 code units; only then is the account requested. */
  function HandleSignUp(password: string, confirm: string, reply: SignUpReply): (o: SignUpOutcome)
    ensures o.signUpCalled <==> password == confirm && Utf16Length(password) >= MinPasswordLength
    ensures o.redirectsToLogin <==> o.signUpCalled && reply == Created
    ensures password != confirm ==> o.message == PasswordsDiffer
    ensures password == confirm && Utf16Length(password) < MinPasswordLength ==> o.message == PasswordTooShort
    ensures o.signUpCalled && reply == Created ==> o.message == AccountCreated
    ensures o.signUpCalled && reply.Rejected? ==> o.message == reply.message
    ensures o.signUpCalled && reply == Threw ==> o.message == UnexpectedError
  {
    if password != confirm then SignUpOutcome(PasswordsDiffer, false, false)
    else if Utf16Length(password) < MinPasswordLength then SignUpOutcome(PasswordTooShort, false, false)
    else match reply
      case Created => SignUpOutcome(AccountCreated, true, true)
      case Rejected(message) => SignUpOutcome(message, true, false)
      case Threw => SignUpOutcome(UnexpectedError, true, false)
  }

  /** The message box uses the success colours when the message includes "successfully". */
  predicate SuccessStyled(message: string) {
    Contains(message, "successfully")
  }

  lemma CreatedMessageStyled()
    ensures SuccessStyled(AccountCreated)
  {
    assert OccursAt(AccountCreated, "successfully", 16);
  }

  lemma MismatchNotStyled()
    ensures !SuccessStyled(PasswordsDiffer)
  {
    assert 'f' !in PasswordsDiffer;
    SuccessNeedsF(PasswordsDiffer);
  }

  lemma TooShortNotStyled()
    ensures !SuccessStyled(PasswordTooShort)
  {
    assert 'f' !in "Password must be " && 'f' !in "at least 6 characters long";
    SuccessNeedsF(PasswordTooShort);
  }

  lemma UnexpectedErrorNotStyled()
    ensures !SuccessStyled(UnexpectedError)
  {
    assert 'f' !in "An unexpected " && 'f' !in "error occurred. " && 'f' !in "Please try again.";
    SuccessNeedsF(UnexpectedError);
  }

  /** The success colours appear exactly when the account was created, provided the
      backend's own error text does not include "successfully" (if it did, an error
      would be shown in the success colours). */
  lemma SuccessStyleIffCreated(password: string, confirm: string, reply: SignUpReply)
    requires reply.Rejected? ==> !SuccessStyled(reply.message)
    ensures SuccessStyled(HandleSignUp(password, confirm, reply).message) <==> HandleSignUp(password, confirm, reply).redirectsToLogin
  {
    CreatedMessageStyled();
    MismatchNotStyled();
    TooShortNotStyled();
    UnexpectedErrorNotStyled();
  }

  /** A mismatch is reported before the length, and the length counts UTF-16 code units:
      five characters one of which is an emoji are long enough. */
  lemma SignUpExamples(reply: SignUpReply)
    ensures HandleSignUp("abc", "abd", reply).message == PasswordsDiffer
    ensures HandleSignUp("abc12", "abc12", reply).message == PasswordTooShort
    ensures HandleSignUp("abc123", "abc123", reply).signUpCalled
    ensures HandleSignUp("ab\U{1F600}cd", "ab\U{1F600}cd", reply).signUpCalled
  {
    assert Utf16Length("abc12") == 5;
    assert Utf16Length("abc123") == 6;
    assert Utf16Length("ab\U{1F600}cd") == 6;
  }
}

=== FILE: text.dfy ===
/** String helpers with the semantics of the JavaScript built-ins the handlers call:
    `Number.prototype.toString` on non-negative integers, `String.prototype.startsWith`,
    `includes`, `split` on a one-character separator, `toLowerCase` (ASCII letters only)
    and `length` (UTF-16 code units). */
module Text {

  predicate IsDigit(c: char) {
    '0' <= c <= '9'
  }

  predicate AllDigits(s: string) {
    forall i :: 0 <= i < |s| ==> IsDigit(s[i])
  }

  /** The character of decimal digit `d`. */
  function DigitChar(d: nat): (c: char)
    requires d < 10
    ensures IsDigit(c) && (c as int) - ('0' as int) == d
  {
    ('0' as int + d) as char
  }

  /** Decimal rendering of a non-negative integer, as `n.toString()` produces it:
      digits only, no sign, no leading zero. */
  function NatToString(n: nat): (s: string)
    ensures 1 <= |s| && AllDigits(s)
    ensures s[0] == '0' ==> n == 0
    decreases n
  {
    if n < 10 then [DigitChar(n)] else NatToString(n / 10) + [DigitChar(n % 10)]
  }

  /** The value of a string of decimal digits, most significant first. */
  function DecimalValue(s: string): nat
    requires AllDigits(s)
  {
    if |s| == 0 then 0 else DecimalValue(s[..|s| - 1]) * 10 + ((s[|s| - 1] as int) - ('0' as int))
  }

  /** Reading back a rendered number gives the number. */
  lemma {:induction false} DecimalValueOfNatToString(n: nat)
    ensures DecimalValue(NatToString(n)) == n
    decreases n
  {
    if n >= 10 {
      var s := NatToString(n);
      assert s[..|s| - 1] == NatToString(n / 10);
      DecimalValueOfNatToString(n / 10);
    }
  }

  /** Different numbers render differently. */
  lemma NatToStringInjective(m: nat, n: nat)
    requires NatToString(m) == NatToString(n)
    ensures m == n
  {
    DecimalValueOfNatToString(m);
    DecimalValueOfNatToString(n);
  }

  predicate StartsWith(s: string, prefix: string) {
    |prefix| <= |s| && s[..|prefix|] == prefix
  }

  /** `t` occurs in `s` starting at index `i`. */
  predicate OccursAt(s: string, t: string, i: int) {
    0 <= i <= |s| - |t| && s[i..i + |t|] == t
  }

  /** `s.includes(t)`. */
  predicate Contains(s: string, t: string) {
    exists i | 0 <= i <= |s| :: OccursAt(s, t, i)
  }

  /** A string containing "successfully" contains the letter `f`. */
  lemma SuccessNeedsF(s: string)
    ensures Contains(s, "successfully") ==> 'f' in s
  {
    if Contains(s, "successfully") {
      var i :| 0 <= i <= |s| && OccursAt(s, "successfully", i);
      assert |"successfully"| == 12;
      assert s[i + 7] == s[i..i + 12][7] == 'f';
    }
  }

  /** `s.length`: JavaScript counts UTF-16 code units, so a character outside the
      Basic Multilingual Plane counts twice. */
  function Utf16Length(s: string): (n: nat)
    ensures |s| <= n <= 2 * |s|
  {
    if |s| == 0 then 0 else (if s[0] as int >= 0x1_0000 then 2 else 1) + Utf16Length(s[1..])
  }

  predicate IsAsciiUpper(c: char) {
    'A' <= c <= 'Z'
  }

  /** `toLowerCase` restricted to ASCII letters. */
  function LowerChar(c: char): (d: char)
    ensures !IsAsciiUpper(d)
    ensures IsAsciiUpper(c) ==> (d as int) == (c as int) + 32
    ensures !IsAsciiUpper(c) ==> d == c
  {
    if IsAsciiUpper(c) then (c as int + 32) as char else c
  }

  function Lower(s: string): (r: string)
    ensures |r| == |s|
    ensures forall i :: 0 <= i < |s| ==> r[i] == LowerChar(s[i])
  {
    seq(|s|, i requires 0 <= i < |s| => LowerChar(s[i]))
  }

  /** Lower-casing twice is lower-casing once. */
  lemma LowerIdempotent(s: string)
    ensures Lower(Lower(s)) == Lower(s)
  {
    assert forall i :: 0 <= i < |s| ==> LowerChar(LowerChar(s[i])) == LowerChar(s[i]);
  }

  /** `s.split(sep)` for a one-character separator: the pieces between separators,
      always at least one (the empty string splits to `[""]`). */
  function Split(s: string, sep: char): (pieces: seq<string>)
    ensures |pieces| >= 1
    ensures forall k :: 0 <= k < |pieces| ==> sep !in pieces[k]
    ensures |pieces| == 1 <==> sep !in s
    decreases |s|
  {
    if |s| == 0 then [""]
    else if s[0] == sep then [""] + Split(s[1..], sep)
    else
      var rest := Split(s[1..], sep);
      [[s[0]] + rest[0]] + rest[1..]
  }

  /** `pieces.join(sep)`. */
  function Join(pieces: seq<string>, sep: char): string
    requires |pieces| >= 1
    decreases |pieces|
  {
    if |pieces| == 1 then pieces[0] else pieces[0] + [sep] + Join(pieces[1..], sep)
  }

  /** Joining the pieces back with the separator restores the string. */
  lemma {:induction false} JoinSplit(s: string, sep: char)
    ensures Join(Split(s, sep), sep) == s
    decreases |s|
  {
    if |s| == 0 {
    } else if s[0] == sep {
      JoinSplit(s[1..], sep);
      assert ([""] + Split(s[1..], sep))[1..] == Split(s[1..], sep);
      assert s == [sep] + s[1..];
    } else {
      var rest := Split(s[1..], sep);
      JoinSplit(s[1..], sep);
      var pieces := [[s[0]] + rest[0]] + rest[1..];
      if |rest| == 1 {
        assert s == [s[0]] + s[1..];
      } else {
        assert pieces[1..] == rest[1..];
        assert Join(rest, sep) == rest[0] + [sep] + Join(rest[1..], sep);
        assert s == [s[0]] + s[1..];
      }
    }
  }

  /** `s.split(sep).pop()`. */
  function LastPiece(s: string, sep: char): string {
    var pieces := Split(s, sep);
    pieces[|pieces| - 1]
  }

  /** The last piece is the text after the last separator, or the whole string when
      there is no separator. */
  lemma {:induction false} LastPieceIsTail(s: string, sep: char)
    ensures sep !in LastPiece(s, sep)
    ensures sep !in s ==> LastPiece(s, sep) == s
    ensures sep in s ==>
      var e := LastPiece(s, sep);
      |e| < |s| && s[|s| - |e| - 1] == sep && s[|s| - |e|..] == e
    decreases |s|
  {
    if |s| > 0 {
      var rest := Split(s[1..], sep);
      LastPieceIsTail(s[1..], sep);
      if s[0] == sep {
        assert Split(s, sep) == [""] + rest;
        assert LastPiece(s, sep) == LastPiece(s[1..], sep);
        if sep in s[1..] {
        } else {
          assert s == [sep] + s[1..];
        }
      } else {
        assert sep in s <==> sep in s[1..] by {
          assert s == [s[0]] + s[1..];
        }
        if |rest| == 1 {
          assert LastPiece(s, sep) == [s[0]] + rest[0];
          assert s == [s[0]] + s[1..];
        } else {
          var e := LastPiece(s[1..], sep);
          assert LastPiece(s, sep) == e;
          assert s[|s| - |e| - 1] == s[1..][|s[1..]| - |e| - 1];
          assert s[|s| - |e|..] == s[1..][|s[1..]| - |e|..];
        }
      }
    }
  }
}

=== FILE: wrappers.dfy ===
/** Optional values and error-or-value results shared by every component. */
module Wrappers {

  /** A value that may be absent: JavaScript's `null`/`undefined`. */
  datatype Option<+T> = None | Some(value: T) {

    /** The value, or `default` when absent. */
    function GetOr(default: T): T {
      match this
      case Some(v) => v
      case None => default
    }
  }

  /** The outcome of a handler: a value, or the message the handler reports.
      An `Err` carries no store, so a failing handler leaves the store as it was. */
  datatype Result<+T> = Ok(value: T) | Err(message: string)
}
